=== FILE: README.md ===
# ignite-citizen-app, modelled in Dafny

A civic-issue reporting web app. Citizens browse reported problems (street
lights, potholes, missed garbage collection), filter them, report new ones,
chat with a canned assistant, and look at their profile and at other users.
This project models the logic of that front end as pure Dafny functions over
immutable datatypes and proves what the pages promise:

- **Services**: the `Issue` and `User` records and the mock issue service
  (`getIssues` fixture, `createIssue` defaults-then-spread, `updateIssueStatus` echo).
- **Dashboard**: the three-step filter effect (search, status, category), the
  status counts over the unfiltered list, and the `category` query parameter.
- **Home**: the category tiles and their links, the report-status cards, the
  five most recent reports and their badge variants.
- **Profile**: the impact counts, the issue list with its status colours, the
  empty state and the avatar initials.
- **ReportIssue**: the category choices, the submit guard, the draft sent to
  the service, the reset after success, and image removal.
- **AIChat**: the send guard, the two appends of an exchange, and the ordered
  keyword classifier behind the six canned replies.
- **Auth**: the session kept in local storage, restored on mount, written by
  login and erased by logout.
- **UserDetail**: the fetch effect keyed by the route id and what the page
  renders for each state: spinner, not-found panel or profile card.

Shared modules: `Outcome` (`Option`, and `Fetch` for a settled request),
`Text` (ASCII lowercasing, `includes`, `trim`, `split(' ')`/`join`, initials),
`Seqs` (`filter` and its laws), `Stats` (counting by status) and
`StatusDisplay` (status colours and badge variants).

Requests never appear as effects: a page receives the settled outcome of each
request (`Ok(data)` or `Err`) as an input. The clock (`Date.now()`, ISO
timestamps), `URL.createObjectURL`, and `JSON.stringify`/`JSON.parse` are
parameters as well.

Four behaviours of the code worth stating up front:

- The Dashboard search is applied whenever the term is non-empty. It is
  not trimmed, so `" "` is a real search term (`Dashboard.BlankSearchIsNotIgnored`).
- `updateIssueStatus` never fails and checks no id: it resolves with its two
  arguments.
- `createIssue` validates nothing. The submit handler's only guard is an
  emptiness check, and that check does not trim either (`ReportIssue.BlankFieldsPass`).
  `ReportIssue.Submit` models the handler; the browser's own `required`
  validation on the inputs, which runs first and does not trim either, is
  not modelled.
- The Dashboard's category select offers six categories, while the report
  form offers eight (`safety` and `other` too). The filter compares strings,
  so any category value works as a filter.

## Model

| member | source | states |
|---|---|---|
| Text.Lower | src/pages/Dashboard.tsx:49-51 | `toLowerCase` keeps the length, leaves no upper-case ASCII letter, keeps every other character and maps each upper-case letter to its lower-case one |
| Text.LowerIdempotent | src/pages/AIChat.tsx:67 | lowercasing a lowercased text changes nothing |
| Text.IncludesIffOccurs | src/pages/Dashboard.tsx:49-51 | `s.includes(t)` holds exactly when `t` occurs in `s` at some position |
| Text.TrimStart | src/pages/AIChat.tsx:38 | the result is a suffix of the input that does not start with white space, and everything cut off is white space |
| Text.TrimEnd | src/pages/AIChat.tsx:38 | the result is a prefix of the input that does not end with white space, and everything cut off is white space |
| Text.Trim | src/pages/AIChat.tsx:38 | `trim()` gives a contiguous slice of the input with only white space cut from either side, and no white space left at either end |
| Text.TrimEmptyIffBlank | src/pages/AIChat.tsx:38 | `trim()` gives the empty string exactly when every character is white space |
| Text.Split | src/pages/Profile.tsx:86 | `split(' ')` gives one piece more than there are spaces, and no piece contains a space |
| Text.JoinSplit | src/pages/Profile.tsx:86 | joining the pieces of `split(' ')` with single spaces gives the name back |
| Text.SplitJoin | src/pages/Profile.tsx:86 | splitting space-free words joined by single spaces gives the words back |
| Text.Initials | src/pages/Profile.tsx:86 | the avatar fallback has at most one character per space-separated word of the name |
| Text.InitialsShape | src/pages/UserDetail.tsx:93 | the initials number at most one per space-separated word; none is a space, and each is a character of the name |
| Text.InitialsOfWords | src/pages/Profile.tsx:86 | the initials of words joined by spaces are the words' first characters in order; empty words contribute nothing |
| Seqs.Filter | src/pages/Dashboard.tsx:48-62 | `filter` keeps exactly the elements that pass, and is no longer than its input |
| Seqs.FilterCounts | src/pages/Dashboard.tsx:48-62 | a value that passes occurs in the result exactly as often as in the input, and a value that fails not at all |
| Seqs.FilterIsSubsequence | src/pages/Dashboard.tsx:44-65 | a filter's result is an order-preserving subsequence of its input |
| Seqs.FilterIdempotent | src/pages/Dashboard.tsx:43-66 | filtering again by the same predicate changes nothing |
| Seqs.FilterCommute | src/pages/Dashboard.tsx:47-63 | two filters applied in either order give the same sequence |
| Seqs.FilterFuse | src/pages/Dashboard.tsx:44-65 | filtering by `p` and then by `q` equals one filter by `p && q` |
| Services.StatusNamesExact | src/api/services.ts:26 | the status type admits exactly `pending`, `in-progress` and `resolved`, one name per status |
| Services.GetIssues | src/api/services.ts:52-88 | `getIssues` succeeds with three issues: ids 1, 2, 3, all of user 1, one pending, one in progress, one resolved |
| Services.CreateIssue | src/api/services.ts:90-99 | a draft without status, userId, id or createdAt gets `pending`, 1, the clock's id and the timestamp; every supplied field overrides its default; text fields and imageUrl are copied |
| Services.CreateFromFullDraft | src/api/services.ts:96 | a draft carrying every field creates exactly that issue, whatever the clock says |
| Services.UpdateIssueStatus | src/api/services.ts:101-103 | `updateIssueStatus(id, s)` always succeeds with exactly `{id, s}` |
| Stats.CountStatus | src/pages/Dashboard.tsx:95-97 | a count by status never exceeds the list's length |
| Stats.StatusPartition | src/pages/Dashboard.tsx:94-97 | the pending, in-progress and resolved counts add up to the list's length |
| Stats.CountZeroIffAbsent | src/pages/Dashboard.tsx:95 | a status count is zero exactly when no issue has that status |
| Stats.CountAppend | src/pages/Dashboard.tsx:95-97 | counts over a concatenation add up |
| Stats.FixtureCounts | src/api/services.ts:54-85 | the fixture holds one issue of each status |
| StatusDisplay.StatusColor | src/pages/Dashboard.tsx:81-92 | pending, in-progress and resolved get the yellow, blue and green classes, each colour for exactly one status; the grey default is never reached |
| StatusDisplay.StatusColorInjective | src/pages/Profile.tsx:54-65 | equal colours mean equal statuses (the Profile switch is the same function) |
| StatusDisplay.BadgeVariant | src/pages/Home.tsx:156-160 | resolved gets `default`, in-progress `secondary`, pending `outline`, each exactly |
| Dashboard.SearchStepIsFilter | src/pages/Dashboard.tsx:47-53 | the search step, on or off, is one filter by a gate predicate |
| Dashboard.StatusStepIsFilter | src/pages/Dashboard.tsx:56-58 | the status step, on or off, is one filter by a gate predicate |
| Dashboard.CategoryStepIsFilter | src/pages/Dashboard.tsx:61-63 | the category step, on or off, is one filter by a gate predicate |
| Dashboard.Visible | src/pages/Dashboard.tsx:43-66 | the shown list is no longer than the list, holds only issues of the list, and each one passes all three controls |
| Dashboard.VisibleIsSinglePass | src/pages/Dashboard.tsx:43-66 | the three steps together equal one filter by the combined condition |
| Dashboard.VisibleUnfiltered | src/pages/Dashboard.tsx:43-66 | with an empty search and both selects on `all`, every issue is shown in order |
| Dashboard.VisibleExactly | src/pages/Dashboard.tsx:44-65 | an issue is shown iff it is in the list and passes all three filters; the shown list is an order-preserving subsequence |
| Dashboard.ShownIssueMatches | src/pages/Dashboard.tsx:47-63 | a shown issue has the selected status and category, and the lowercased term occurs in its lowercased title, description or location |
| Dashboard.VisibleIdempotent | src/pages/Dashboard.tsx:43-66 | filtering the shown list again by the same controls changes nothing |
| Dashboard.StepOrderIrrelevant | src/pages/Dashboard.tsx:47-63 | all six orders of the three steps show the same list |
| Dashboard.BlankSearchIsNotIgnored | src/pages/Dashboard.tsx:47-53 | the term `" "` is applied, not trimmed away: it hides an issue whose texts contain no space |
| Dashboard.Aggregate | src/pages/Dashboard.tsx:94-97 | the total is the list's length; the pending, in-progress and resolved cards hold the counts of exactly those statuses and add up to the total; pending is zero iff no issue is pending |
| Dashboard.Mount | src/pages/Dashboard.tsx:21-41 | run on the current state: on success the list is replaced, a non-empty `category` parameter becomes the category filter and an absent or empty one keeps the filter as it was; on failure only the spinner changes; search and status are never touched; loading ends either way |
| Dashboard.FirstMount | src/pages/Dashboard.tsx:13-41 | on the first mount the search is empty and the status is `all`; a failed fetch leaves nothing loaded or filtered; a category is filtered iff the fetch succeeded and the query names one other than `all` |
| Dashboard.StickyCategory | src/pages/Dashboard.tsx:29-32 | as written, re-running the effect for a URL without `category` keeps the earlier query's category, while the same URL opened afresh filters none |
| Dashboard.MountIntended | src/pages/Dashboard.tsx:21-41 | the corrected effect: after a successful fetch the category filter is the query's non-empty `category`, else `all`; all else as in `Dashboard.Mount` |
| Dashboard.IntendedFollowsUrl | src/pages/Dashboard.tsx:28-32 | with the corrected effect the same URL gives the same category filter whatever state it is reached from, and a first mount agrees with the code as written |
| Dashboard.View | src/pages/Dashboard.tsx:43-97 | the counts are taken over the whole list and add up to its length, which bounds the shown list; the shown list is one filter of the whole list by the combined controls, so it is exactly the issues passing them, in the list's order and with its repetitions |
| Dashboard.CountsIgnoreControls | src/pages/Dashboard.tsx:94-97 | changing the search, status or category control (the setters `SetSearch`, `SetStatus` and `SetCategory`, for the `onChange` handlers at lines 184, 189 and 201) never changes the counts |
| Dashboard.FixtureResolvedScenario | src/pages/Dashboard.tsx:56-58 | on the fixture, selecting `resolved` shows only the third issue |
| Dashboard.FixtureCards | src/pages/Dashboard.tsx:94-97 | on the fixture the cards read 3 in total, 1 pending, 1 in progress, 1 resolved |
| Dashboard.SearchIgnoresCase | src/pages/Dashboard.tsx:49-51 | a search term and its lowercase form select the same issues |
| Dashboard.UpperCaseSearchFindsFixture | src/pages/Dashboard.tsx:47-53 | `MAIN` finds the street-light issue through its location |
| Home.TileSlug | src/pages/Home.tsx:28-35 | each tile's category slug is its name lowercased |
| Home.TilePathsFollowNames | src/pages/Home.tsx:28-35 | there are six tiles; each links to `/dashboard?category=` plus its lowercased name, and no slug is empty or `all` |
| Home.CategoryParam | src/pages/Dashboard.tsx:29-31 | the `category` parameter is read exactly from paths of the tile form, and path = prefix + value |
| Home.TileOpensItsCategory | src/pages/Home.tsx:29-34 | following a tile shows exactly the issues whose category is the tile's lowercased name |
| Home.ReportCards | src/pages/Home.tsx:37-39 | the total is the list's length; the pending and resolved cards hold the counts of exactly those statuses, never exceed the total together, and leave the in-progress count as the difference |
| Home.Recent | src/pages/Home.tsx:141 | the recent list is the first `min(5, n)` issues, in their original order |
| Home.Mount | src/pages/Home.tsx:14-26 | a failed fetch leaves an empty list and zero cards; loading ends either way |
| Home.HomeOnFixture | src/pages/Home.tsx:37-39 | on the fixture, all three issues are recent and the cards read 3, 1 pending, 1 resolved |
| Profile.Render | src/pages/Profile.tsx:21-39 | the whole fetched list is listed, not narrowed to the user; the total is its length, resolved plus pending never exceeds it, and the rest are in progress; the resolved and pending counts are those of exactly those statuses; the empty state shows iff the list is empty; each issue gets its status colour; the initials are the name's, at most one per word |
| Profile.MockUserInitials | src/pages/Profile.tsx:13-18 | the mock user "John Doe" gets the avatar initials "JD", whatever the fetch gave |
| Profile.FullNameInitials | src/pages/Profile.tsx:86 | a first and a last name give exactly their two first letters as initials |
| ReportIssue.CategoriesDistinct | src/pages/ReportIssue.tsx:28-37 | there are eight category values, pairwise distinct |
| ReportIssue.TilesAreReportCategories | src/pages/Home.tsx:29-34 | every Home tile's category is one the report form offers |
| ReportIssue.DraftFrom | src/pages/ReportIssue.tsx:111-115 | the draft carries the four form fields, no id, user, status or timestamp, and exactly the object URL of the picture when one is selected, none otherwise |
| ReportIssue.Submit | src/pages/ReportIssue.tsx:96-145 | something is sent iff all four fields are non-empty; a rejected submit leaves the form as it was; success resets fields, picture and preview; failure keeps the fields; submitting is false after both |
| ReportIssue.EmptyFieldBlocksSubmit | src/pages/ReportIssue.tsx:99-106 | one empty required field means no draft is sent and the form is unchanged |
| ReportIssue.BlankFieldsPass | src/pages/ReportIssue.tsx:99 | fields holding only a space pass the guard and are sent as they are |
| ReportIssue.ReportedIssueIsPending | src/pages/ReportIssue.tsx:111-117 | a report sent through the mock service becomes a pending issue of user 1 with the form's fields and the picture's object URL, if any |
| ReportIssue.RemoveImage | src/pages/ReportIssue.tsx:182-187 | removing the picture clears both it and its preview and keeps every text field |
| AIChat.Has | src/pages/AIChat.tsx:67-69 | the keyword test holds exactly when the word occurs in the lowercased input |
| AIChat.Classify | src/pages/AIChat.tsx:66-90 | the reply is chosen by the first keyword group that matches: report, then status, then greeting, then help, then thanks, else the fallback; each reply is characterised as an if-and-only-if |
| AIChat.BotResponse | src/pages/AIChat.tsx:66-90 | every input gets one of the six fixed replies |
| AIChat.ReplyTextInjective | src/pages/AIChat.tsx:66-90 | the six reply texts are pairwise different, so the reply shown tells which keyword group matched |
| AIChat.ClassifyIgnoresCase | src/pages/AIChat.tsx:67 | an input and its lowercase form get the same reply |
| AIChat.Send | src/pages/AIChat.tsx:37-49 | an empty or white-space-only input changes nothing; otherwise the untrimmed text is appended as a user message, the box is cleared and the bot is typing |
| AIChat.Deliver | src/pages/AIChat.tsx:52-63 | the bot step appends exactly one bot message with id `later + 1` and clears the typing flag |
| AIChat.Exchange | src/pages/AIChat.tsx:37-64 | a full exchange appends the user's message and the reply to the text captured at send time, in that order; a blank input appends nothing |
| AIChat.FirstExchange | src/pages/AIChat.tsx:14-64 | on a fresh page the greeting stays first, followed by the user's message and the reply to it |
| AIChat.KeywordInsideWord | src/pages/AIChat.tsx:75-77 | keywords match inside words: `this` is answered with the greeting because it contains `hi` |
| Auth.Mount | src/contexts/AuthContext.tsx:32-42 | a user is restored only when both the `user` and `token` keys hold something and the stored user parses; loading ends then, and storage is untouched |
| Auth.IsAuthenticated | src/contexts/AuthContext.tsx:77 | the session counts as signed in exactly when a user is set |
| Auth.Login | src/contexts/AuthContext.tsx:44-67 | login yields user 1, "John Doe", the given email and the avatar; it writes both keys and leaves every other key as it was; loading ends |
| Auth.Logout | src/contexts/AuthContext.tsx:69-73 | logout removes both keys and the user, leaving every other key and the loading flag as they were |
| Auth.LogoutIdempotent | src/contexts/AuthContext.tsx:69-73 | logging out twice equals logging out once |
| Auth.LoginIgnoresPassword | src/contexts/AuthContext.tsx:44-55 | the password has no effect on the login |
| Auth.LoginThenMountRestores | src/contexts/AuthContext.tsx:32-67 | a session written by login is restored by the next mount, given a non-empty encoding that parses back |
| Auth.LogoutThenMountForgets | src/contexts/AuthContext.tsx:32-73 | after logout, the next mount restores no user |
| Auth.HalfSessionIgnored | src/contexts/AuthContext.tsx:37-39 | a user without a token, or a token without a user, is no session |
| UserDetail.FetchUser | src/pages/UserDetail.tsx:17-37 | a missing or empty id sets "No user ID provided" whatever the directory would answer; a failed request sets "Failed to load user details"; a reply sets the user; loading is false on every path |
| UserDetail.PhoneLine | src/pages/UserDetail.tsx:129 | an empty phone shows "Not provided", any other is shown as is |
| UserDetail.WebsiteLine | src/pages/UserDetail.tsx:134-145 | an empty website shows "Not provided"; any other links to `https://` plus the site |
| UserDetail.Render | src/pages/UserDetail.tsx:39-94 | a spinner iff loading; otherwise the not-found panel iff there is an error or no user, with the error or the default text as its message; else the card with the user's fields and the initials of the user's name, at most one per word |
| UserDetail.FirstVisit | src/pages/UserDetail.tsx:17-56 | on a first visit the spinner always goes, and the card appears iff there is an id and the directory returned a user; each failure shows its message |
| UserDetail.EarlierErrorPersists | src/pages/UserDetail.tsx:17-37 | nothing is cleared when the id changes, so an earlier error still shows after a later id loads |

## Left out

- `src/api/client.ts` (the HTTP client, its interceptors and redirects) is not part of this model. The user directory's answer is an input to `UserDetail.FetchUser`.
- Routing, `src/App.tsx`, the Navbar, the Footer and the About page: these are navigation and static markup.
- Timers and the ids taken from the clock are parameters: the 1.5 s chat delay, the 1 s login delay and the 2 s redirect after a report are not modelled.
- Toast rendering, console logging and the icon returned by `getStatusIcon` are markup, not logic. Which toast a submit raises is modelled, as `ReportIssue.Submission.notice`.
- Native form validation: the report form's inputs carry `required` (src/pages/ReportIssue.tsx:224, 239, 251, 278), so the browser blocks an empty field before the submit handler runs. `ReportIssue.Submit` models the handler alone.
- Geolocation, including the `toFixed(6)` coordinate formatting, is floating point and a browser API. The form's location field is a plain string instead.
- `FileReader` is not modelled: the preview is an optional string. `URL.createObjectURL` is the parameter `objectUrl`.
- `toLocaleDateString` and the other date display are left out.
- Text.Lower: lowercases ASCII letters only, because full Unicode case mapping is locale and table driven.
- Services.CreateIssue: a draft without a text field gets `""` there, where JavaScript leaves the field `undefined`. No caller in the app omits those fields.
- Services.CreateIssue: a field spread in with the value `undefined` would override its default in JavaScript. The model treats it as absent. The app passes only `imageUrl` that way, and `imageUrl` has no default.
- Auth.Mount: a stored value that parses to something other than a user object (such as `null`) is not modelled. `decode` either yields an account or rejects.
- Auth.Login: the catch path is left out. It is reached only when `localStorage.setItem` throws (storage full or disabled), which can leave the user written without the token (`user` is stored first, src/contexts/AuthContext.tsx:59-60; `Auth.HalfSessionIgnored` shows the next mount treats that as no session); here storage is an unbounded map whose writes always succeed. The transient `loading = true` state during the delay is not modelled.
- Text.InitialsOfWords: JavaScript's `n[0]` is a UTF-16 code unit, while a Dafny string is a sequence of Unicode scalar values. For a word starting outside the Basic Multilingual Plane (an emoji, say) the app shows a lone surrogate where the model takes the whole character; the same holds for `Text.Initials` and `Text.Heads`.
- Home.CategoryParam: reads the parameter only from paths of the form the tiles produce, and does no URL decoding. Everything after `category=` is taken as the value, and a `category` after another parameter is not found, where `searchParams.get('category')` would split at `&` and find it anywhere.
- UserDetail.Render: the avatar image URL with the user's id is left out, since it needs integer-to-text conversion.
- Profile.Render: the loading spinner is not modelled. The page is rendered once the fetch has settled.
- The Dashboard spinner is not modelled beyond the `loading` flag.

## Findings

| source | as written | input that shows it | evidently intended | confidence | as-written member | corrected member |
|---|---|---|---|---|---|---|
| src/pages/Dashboard.tsx:29-32 | the fetch effect re-runs on every query change but sets the category filter only when `category` is present, so the previous category stays | on `/dashboard?category=roads`, follow the navigation bar's Report Status link to `/dashboard` (src/components/Navbar.tsx:26): the list stays restricted to roads | the query decides the category filter, `all` when it names none | medium, not executed | Dashboard.StickyCategory | Dashboard.MountIntended |

The rest of the model mounts the Dashboard only from its initial state (a
tile on Home opens a fresh Dashboard), where the two effects agree
(`Dashboard.IntendedFollowsUrl`).

=== FILE: ai_chat.dfy ===
/** The canned assistant of the chat page: the send step that appends the
    user's message, the delayed bot step that appends the reply, and the
    keyword classifier that picks one of six fixed replies. The delay and
    the clock are parameters: `now` is the time of the send and `later` the
    time the reply is delivered. */
module AIChat {
  import opened Text

  datatype Sender = User | Bot

  /** A chat bubble. The display timestamp is left out. */
  datatype Message = Message(id: int, text: string, sender: Sender)

  /** The page's state: the transcript, the input box and the typing
      indicator. */
  datatype ChatState = ChatState(messages: seq<Message>, input: string, typing: bool)

  const Greeting := "Hello! I'm your AI assistant. I can help you with reporting issues, checking status, or answering questions about community services. How can I help you today?"

  /** The page as it opens: the greeting from the bot, id 1. */
  const Opening := ChatState([Message(1, Greeting, Bot)], "", false)

  /** The six replies, in the order the classifier tries them. */
  datatype Reply = ReportHelp | StatusHelp | Welcome | HelpMenu | YoureWelcome | Fallback

  const ReportHelpText := "I can help you report an issue! You can describe the problem here, or would you like me to guide you to the report form where you can add photos and location details?"
  const StatusHelpText := "To check the status of your reports, you can visit the Dashboard where you'll see all your submitted issues and their current status. Would you like me to help you navigate there?"
  const WelcomeText := "Hello! I'm here to help you with any questions about community issues, reporting problems, or checking the status of your submissions. What would you like to know?"
  const HelpMenuText := "I can help you with:\n\U{2022} Reporting new issues\n\U{2022} Checking report status\n\U{2022} Understanding the process\n\U{2022} Navigating the app\n\nWhat specific help do you need?"
  const YoureWelcomeText := "You're welcome! I'm always here to help make your community better. Is there anything else you'd like to know?"
  const FallbackText := "I understand you're asking about that. Let me help you find the right information or guide you to the appropriate section of the app. Could you provide a bit more detail about what you need help with?"

  /** The text shown for each reply. */
  function ReplyText(r: Reply): string {
    match r
    case ReportHelp => ReportHelpText
    case StatusHelp => StatusHelpText
    case Welcome => WelcomeText
    case HelpMenu => HelpMenuText
    case YoureWelcome => YoureWelcomeText
    case Fallback => FallbackText
  }

  /** The six texts differ at their twenty-first character from the end,
      so a reply text names its reply. */
  lemma ReplyTextInjective(r1: Reply, r2: Reply)
    ensures ReplyText(r1) == ReplyText(r2) <==> r1 == r2
  {
    MarkOfReply(r1);
    MarkOfReply(r2);
    MarkInjective(r1, r2);
  }

  lemma MarkInjective(r1: Reply, r2: Reply)
    ensures Mark(r1) == Mark(r2) ==> r1 == r2
  {
  }

  /** The twenty-first character from the end of each text. */
  function Mark(r: Reply): char {
    match r
    case ReportHelp => 'a'
    case StatusHelp => 'p'
    case Welcome => 'u'
    case HelpMenu => 'f'
    case YoureWelcome => 'e'
    case Fallback => 't'
  }

  lemma MarkOfReply(r: Reply)
    ensures |ReplyText(r)| > 21 && ReplyText(r)[|ReplyText(r)| - 21] == Mark(r)
  {
    TextMarks();
  }

  lemma TextMarks()
    ensures |ReportHelpText| > 21 && ReportHelpText[|ReportHelpText| - 21] == 'a'
    ensures |StatusHelpText| > 21 && StatusHelpText[|StatusHelpText| - 21] == 'p'
    ensures |WelcomeText| > 21 && WelcomeText[|WelcomeText| - 21] == 'u'
    ensures |HelpMenuText| > 21 && HelpMenuText[|HelpMenuText| - 21] == 'f'
    ensures |YoureWelcomeText| > 21 && YoureWelcomeText[|YoureWelcomeText| - 21] == 'e'
    ensures |FallbackText| > 21 && FallbackText[|FallbackText| - 21] == 't'
  {
  }

  /** `word` occurs somewhere in the lowercased input. */
  ghost predicate Mentions(input: string, word: string) {
    exists i :: OccursAt(Lower(input), word, i)
  }

  ghost predicate AsksToReport(input: string) {
    Mentions(input, "report") || Mentions(input, "issue") || Mentions(input, "problem")
  }

  ghost predicate AsksAboutStatus(input: string) {
    Mentions(input, "status") || Mentions(input, "check") || Mentions(input, "update")
  }

  ghost predicate Greets(input: string) {
    Mentions(input, "hello") || Mentions(input, "hi") || Mentions(input, "hey")
  }

  ghost predicate AsksForHelp(input: string) {
    Mentions(input, "help") || Mentions(input, "how")
  }

  ghost predicate Thanks(input: string) {
    Mentions(input, "thank")
  }

  /** `input.toLowerCase().includes(word)`. */
  function Has(input: string, word: string): (b: bool)
    ensures b <==> Mentions(input, word)
  {
    IncludesIffOccurs(Lower(input), word);
    Includes(Lower(input), word)
  }

  /** The classifier: the first group with a keyword in the input wins. */
  function Classify(input: string): (r: Reply)
    ensures r == ReportHelp <==> AsksToReport(input)
    ensures r == StatusHelp <==> !AsksToReport(input) && AsksAboutStatus(input)
    ensures r == Welcome <==> !AsksToReport(input) && !AsksAboutStatus(input) && Greets(input)
    ensures r == HelpMenu <==>
              !AsksToReport(input) && !AsksAboutStatus(input) && !Greets(input) && AsksForHelp(input)
    ensures r == YoureWelcome <==>
              !AsksToReport(input) && !AsksAboutStatus(input) && !Greets(input)
              && !AsksForHelp(input) && Thanks(input)
    ensures r == Fallback <==>
              !AsksToReport(input) && !AsksAboutStatus(input) && !Greets(input)
              && !AsksForHelp(input) && !Thanks(input)
  {
    if Has(input, "report") || Has(input, "issue") || Has(input, "problem") then ReportHelp
    else if Has(input, "status") || Has(input, "check") || Has(input, "update") then StatusHelp
    else if Has(input, "hello") || Has(input, "hi") || Has(input, "hey") then Welcome
    else if Has(input, "help") || Has(input, "how") then HelpMenu
    else if Has(input, "thank") then YoureWelcome
    else Fallback
  }

  /** `generateBotResponse`: always one of the six fixed texts. */
  function BotResponse(input: string): (t: string)
    ensures exists r :: t == ReplyText(r)
  {
    ReplyText(Classify(input))
  }

  /** Lowercasing the input first changes nothing: the classifier only
      ever sees the lowercased text. */
  lemma ClassifyIgnoresCase(input: string)
    ensures Classify(Lower(input)) == Classify(input)
    ensures BotResponse(Lower(input)) == BotResponse(input)
  {
    LowerIdempotent(input);
    assert forall w :: Has(Lower(input), w) == Has(input, w);
  }

  /** `handleSendMessage` up to the timer: a blank input (empty or white
      space only) is ignored; otherwise the untrimmed text is appended as a
      user message with id `now`, the box is cleared and the bot is typing. */
  function Send(s: ChatState, now: int): (r: ChatState)
    ensures IsBlank(s.input) ==> r == s
    ensures !IsBlank(s.input) ==>
              && r.messages == s.messages + [Message(now, s.input, User)]
              && r.input == ""
              && r.typing
  {
    TrimEmptyIffBlank(s.input);
    if Trim(s.input) == "" then s
    else ChatState(s.messages + [Message(now, s.input, User)], "", true)
  }

  /** The timer callback: the bot's reply is appended with id `later + 1`
      and the typing indicator goes off. The input box is left alone. */
  function Deliver(s: ChatState, reply: string, later: int): (r: ChatState)
    ensures r.messages == s.messages + [Message(later + 1, reply, Bot)]
    ensures r.input == s.input
    ensures !r.typing
  {
    ChatState(s.messages + [Message(later + 1, reply, Bot)], s.input, false)
  }

  /** A whole exchange: the send, then (if it went through) the reply to
      the text captured at send time, not to whatever the box holds later.
      It adds exactly the user's message and the bot's reply to it, in that
      order, or nothing at all for a blank input. */
  function Exchange(s: ChatState, now: int, later: int): (r: ChatState)
    ensures IsBlank(s.input) ==> r == s
    ensures !IsBlank(s.input) ==>
              && r.messages
                 == s.messages + [Message(now, s.input, User), Message(later + 1, BotResponse(s.input), Bot)]
              && r.input == ""
              && !r.typing
  {
    if IsBlank(s.input) then s
    else
      var reply := BotResponse(s.input);
      SendThenDeliver(s, now, later, reply);
      Deliver(Send(s, now), reply, later)
  }

  /** Whatever the reply, a send followed by its delivery appends the two
      messages in order. */
  lemma SendThenDeliver(s: ChatState, now: int, later: int, reply: string)
    requires !IsBlank(s.input)
    ensures Deliver(Send(s, now), reply, later).messages
            == s.messages + [Message(now, s.input, User), Message(later + 1, reply, Bot)]
  {
    var user, bot := Message(now, s.input, User), Message(later + 1, reply, Bot);
    assert [user] + [bot] == [user, bot];
  }

  /** The first exchange on a fresh page: the greeting stays on top, and
      the user's message and the bot's reply follow it. */
  lemma FirstExchange(text: string, now: int, later: int)
    requires !IsBlank(text)
    ensures var m := Exchange(Opening.(input := text), now, later).messages;
            && |m| == 3 && m[0] == Opening.messages[0]
            && m[1] == Message(now, text, User)
            && m[2] == Message(later + 1, BotResponse(text), Bot)
  {
    var first := Opening.messages[0];
    assert Opening.(input := text) == ChatState([first], text, false);
    ExchangeAfterOne(first, text, now, later);
  }

  /** An exchange after a single message keeps it first. */
  lemma ExchangeAfterOne(first: Message, text: string, now: int, later: int)
    requires !IsBlank(text)
    ensures var m := Exchange(ChatState([first], text, false), now, later).messages;
            && |m| == 3 && m[0] == first
            && m[1] == Message(now, text, User)
            && m[2] == Message(later + 1, BotResponse(text), Bot)
  {
  }

  /** Keywords match anywhere, also inside other words: "this" contains
      "hi", so it is answered with the greeting. */
  lemma KeywordInsideWord()
    ensures Classify("this") == Welcome
  {
    var low := Lower("this");
    assert low == "this";
    assert OccursAt(low, "hi", 1);
    forall w | w in ["report", "issue", "problem", "status", "check", "update"]
      ensures !Includes(low, w)
    {
      NotIncludedWhenLonger(low, w);
    }
    assert !Has("this", "report") && !Has("this", "issue") && !Has("this", "problem");
    assert !Has("this", "status") && !Has("this", "check") && !Has("this", "update");
  }

  /** A word longer than the text does not occur in it. */
  lemma {:induction false} NotIncludedWhenLonger(s: string, t: string)
    requires |t| > |s|
    ensures !Includes(s, t)
    decreases |s|
  {
    if |s| > 0 {
      NotIncludedWhenLonger(s[1..], t);
    }
  }
}

=== FILE: auth_context.dfy ===
/** The authentication context: the session is a user record plus a token
    kept in the browser's local storage under the keys `user` and `token`.
    Local storage is a string map; JSON encoding and decoding of the user
    are parameters, and so is the clock that stamps the mock token. */
module Auth {
  import opened Outcome

  /** The context's user record; the avatar is optional. */
  datatype Account = Account(id: int, name: string, email: string, avatar: Option<string>)

  type Storage = map<string, string>

  const UserKey := "user"
  const TokenKey := "token"
  const TokenPrefix := "mock-jwt-token-"
  const AvatarUrl := "https://images.unsplash.com/photo-1472099645785-5658abf4ff4e?w=150&h=150&fit=crop&crop=face"

  /** The provider's state. */
  datatype AuthState = AuthState(user: Option<Account>, loading: bool, storage: Storage)

  /** The provider as it is created, before the mount effect runs. */
  function Fresh(storage: Storage): AuthState {
    AuthState(None, true, storage)
  }

  /** `!!user`. */
  predicate IsAuthenticated(s: AuthState) {
    s.user.Some?
  }

  /** `localStorage.getItem(k)` is truthy: present and not empty. */
  predicate Stored(st: Storage, k: string) {
    k in st && st[k] != ""
  }

  /** The mount effect. The stored user is restored only when both keys
      hold something; `loading` is then cleared. `decode` stands for
      `JSON.parse`, with `None` for a value it rejects: the effect then
      throws before clearing `loading`, which is modelled as no state. */
  function Mount(storage: Storage, decode: string -> Option<Account>): (r: Option<AuthState>)
    ensures !(Stored(storage, UserKey) && Stored(storage, TokenKey)) ==>
              r == Some(AuthState(None, false, storage))
    ensures Stored(storage, UserKey) && Stored(storage, TokenKey) ==>
              match decode(storage[UserKey])
              case Some(a) => r == Some(AuthState(Some(a), false, storage))
              case None => r.None?
    ensures r.Some? ==> !r.value.loading && r.value.storage == storage
    ensures r.Some? && IsAuthenticated(r.value) ==> Stored(storage, UserKey) && Stored(storage, TokenKey)
  {
    var s := Fresh(storage);
    if Stored(storage, UserKey) && Stored(storage, TokenKey) then
      match decode(storage[UserKey])
      case Some(a) => Some(s.(user := Some(a), loading := false))
      case None => None
    else
      Some(s.(loading := false))
  }

  /** The fixed account every login yields. */
  function MockAccount(email: string): Account {
    Account(1, "John Doe", email, Some(AvatarUrl))
  }

  /** `login(email, password)` once its simulated delay is over. `encode`
      stands for `JSON.stringify` and `stamp` for the printed `Date.now()`.
      No credential is checked. */
  function Login(s: AuthState, email: string, password: string,
                 encode: Account -> string, stamp: string): (r: AuthState)
    ensures r.user == Some(Account(1, "John Doe", email, Some(AvatarUrl)))
    ensures IsAuthenticated(r) && !r.loading
    ensures UserKey in r.storage && r.storage[UserKey] == encode(MockAccount(email))
    ensures TokenKey in r.storage && r.storage[TokenKey] == TokenPrefix + stamp
    ensures Stored(r.storage, TokenKey)
    ensures forall k :: k in s.storage && k != UserKey && k != TokenKey ==>
              k in r.storage && r.storage[k] == s.storage[k]
    ensures forall k :: k in r.storage ==> k in s.storage || k == UserKey || k == TokenKey
  {
    var account := MockAccount(email);
    var storage := s.storage[UserKey := encode(account)][TokenKey := TokenPrefix + stamp];
    AuthState(Some(account), false, storage)
  }

  /** `logout()`: both keys are removed and the user is dropped, whatever
      the state was. `loading` is not touched. */
  function Logout(s: AuthState): (r: AuthState)
    ensures !IsAuthenticated(r)
    ensures UserKey !in r.storage && TokenKey !in r.storage
    ensures forall k :: k in s.storage && k != UserKey && k != TokenKey ==>
              k in r.storage && r.storage[k] == s.storage[k]
    ensures forall k :: k in r.storage ==> k in s.storage
    ensures r.loading == s.loading
  {
    AuthState(None, s.loading, s.storage - {UserKey, TokenKey})
  }

  /** Logging out twice is the same as logging out once. */
  lemma LogoutIdempotent(s: AuthState)
    ensures Logout(Logout(s)) == Logout(s)
  {
    var once := Logout(s).storage;
    assert once - {UserKey, TokenKey} == once;
  }

  /** The password plays no part in a login. */
  lemma LoginIgnoresPassword(s: AuthState, email: string, p: string, q: string,
                             encode: Account -> string, stamp: string)
    ensures Login(s, email, p, encode, stamp) == Login(s, email, q, encode, stamp)
  {
  }

  /** A session written by a login is restored by the next mount, as long
      as the encoding is non-empty and decodes back to the account. */
  lemma LoginThenMountRestores(s: AuthState, email: string, password: string,
                               encode: Account -> string, decode: string -> Option<Account>,
                               stamp: string)
    requires encode(MockAccount(email)) != ""
    requires decode(encode(MockAccount(email))) == Some(MockAccount(email))
    ensures var after := Login(s, email, password, encode, stamp);
            Mount(after.storage, decode) == Some(after)
  {
    var after := Login(s, email, password, encode, stamp);
    assert Stored(after.storage, UserKey) && Stored(after.storage, TokenKey);
  }

  /** After a logout the next mount finds no session, whatever the decoder. */
  lemma LogoutThenMountForgets(s: AuthState, decode: string -> Option<Account>)
    ensures var after := Logout(s);
            Mount(after.storage, decode) == Some(AuthState(None, false, after.storage))
  {
  }

  /** A token without a stored user, or a user without a token, is not a
      session: the mount leaves the user out. */
  lemma HalfSessionIgnored(storage: Storage, decode: string -> Option<Account>)
    requires !Stored(storage, UserKey) || !Stored(storage, TokenKey)
    ensures Mount(storage, decode).Some? && !IsAuthenticated(Mount(storage, decode).value)
  {
  }
}

=== FILE: dashboard.dfy ===
/** The Dashboard page: three ANDed filters narrow the issue list, while the
    summary counts are taken over the whole, unfiltered list.

    The filter effect applies its steps in a fixed order (search, then
    status, then category); each step is a plain predicate filter, so the
    result is the single-pass filter by all three predicates, in the order
    of the input, whatever the order of the steps. */
module Dashboard {
  import opened Outcome
  import opened Services
  import opened Seqs
  import opened Text
  import opened Stats

  /** The filter controls. `status` and `category` are the select values,
      where `"all"` switches the filter off. */
  datatype Criteria = Criteria(search: string, status: string, category: string)

  const All := "all"

  /** The controls as the page starts: no search, every status and category. */
  const Unfiltered := Criteria("", All, All)

  /** The search term, lowercased, occurs in the lowercased title,
      description or location. */
  predicate SearchHit(term: string, i: Issue) {
    var t := Lower(term);
    Includes(Lower(i.title), t) || Includes(Lower(i.description), t)
    || Includes(Lower(i.location), t)
  }

  function MatchesSearch(term: string): Issue -> bool {
    (i: Issue) => SearchHit(term, i)
  }

  function MatchesStatus(f: string): Issue -> bool {
    (i: Issue) => StatusName(i.status) == f
  }

  function MatchesCategory(f: string): Issue -> bool {
    (i: Issue) => i.category == f
  }

  /** `if (searchTerm)`: any non-empty term filters; it is not trimmed. */
  function SearchStep(term: string, xs: seq<Issue>): seq<Issue> {
    if term != "" then Filter(MatchesSearch(term), xs) else xs
  }

  function StatusStep(f: string, xs: seq<Issue>): seq<Issue> {
    if f != All then Filter(MatchesStatus(f), xs) else xs
  }

  function CategoryStep(f: string, xs: seq<Issue>): seq<Issue> {
    if f != All then Filter(MatchesCategory(f), xs) else xs
  }

  /** The filter effect: the issues shown under the current controls. Only
      issues of the list are shown, and every one passes all three
      controls; `VisibleExactly` adds that every such issue is shown. */
  function Visible(xs: seq<Issue>, c: Criteria): (r: seq<Issue>)
    ensures |r| <= |xs| && forall k :: 0 <= k < |r| ==> r[k] in xs
    ensures forall k :: 0 <= k < |r| ==> Admits(c, r[k])
  {
    var a := SearchStep(c.search, xs);
    var b := StatusStep(c.status, a);
    var r := CategoryStep(c.category, b);
    assert forall k :: 0 <= k < |r| ==> r[k] in b;
    assert forall k :: 0 <= k < |b| ==> b[k] in a;
    r
  }

  /** The three filters as one condition on a single issue. */
  predicate Admits(c: Criteria, i: Issue) {
    && (c.search == "" || SearchHit(c.search, i))
    && (c.status == All || StatusName(i.status) == c.status)
    && (c.category == All || i.category == c.category)
  }

  function Admitter(c: Criteria): Issue -> bool {
    (i: Issue) => Admits(c, i)
  }

  // Each step, switched on or off, is a filter by a "gate" predicate.

  function SearchGate(term: string): Issue -> bool {
    (i: Issue) => term == "" || SearchHit(term, i)
  }

  function StatusGate(f: string): Issue -> bool {
    (i: Issue) => f == All || StatusName(i.status) == f
  }

  function CategoryGate(f: string): Issue -> bool {
    (i: Issue) => f == All || i.category == f
  }

  lemma {:induction false} SearchStepIsFilter(term: string, xs: seq<Issue>)
    ensures SearchStep(term, xs) == Filter(SearchGate(term), xs)
  {
    if term == "" {
      FilterKeepsAll(SearchGate(term), xs);
    } else {
      FilterAgree(MatchesSearch(term), SearchGate(term), xs);
    }
  }

  lemma {:induction false} StatusStepIsFilter(f: string, xs: seq<Issue>)
    ensures StatusStep(f, xs) == Filter(StatusGate(f), xs)
  {
    if f == All {
      FilterKeepsAll(StatusGate(f), xs);
    } else {
      FilterAgree(MatchesStatus(f), StatusGate(f), xs);
    }
  }

  lemma {:induction false} CategoryStepIsFilter(f: string, xs: seq<Issue>)
    ensures CategoryStep(f, xs) == Filter(CategoryGate(f), xs)
  {
    if f == All {
      FilterKeepsAll(CategoryGate(f), xs);
    } else {
      FilterAgree(MatchesCategory(f), CategoryGate(f), xs);
    }
  }

  /** The step-by-step effect equals one filter by the combined condition. */
  lemma {:induction false} VisibleIsSinglePass(xs: seq<Issue>, c: Criteria)
    ensures Visible(xs, c) == Filter(Admitter(c), xs)
  {
    var sg, stg, cg := SearchGate(c.search), StatusGate(c.status), CategoryGate(c.category);
    var both := (i: Issue) => sg(i) && stg(i);
    var afterSearch := SearchStep(c.search, xs);
    var afterStatus := StatusStep(c.status, afterSearch);
    SearchStepIsFilter(c.search, xs);
    StatusStepIsFilter(c.status, afterSearch);
    CategoryStepIsFilter(c.category, afterStatus);
    FilterFuse(sg, stg, both, xs);
    FilterFuse(both, cg, Admitter(c), xs);
  }

  /** With no search and both selects on "all", every issue is shown. */
  lemma VisibleUnfiltered(xs: seq<Issue>)
    ensures Visible(xs, Unfiltered) == xs
  {
  }

  /** An issue is shown exactly when it is in the list and passes all three
      filters; the shown issues keep their relative order. */
  lemma VisibleExactly(xs: seq<Issue>, c: Criteria)
    ensures forall i :: i in Visible(xs, c) <==> i in xs && Admits(c, i)
    ensures IsSubsequence(Visible(xs, c), xs)
    ensures |Visible(xs, c)| <= |xs|
  {
    VisibleIsSinglePass(xs, c);
    FilterIsSubsequence(Admitter(c), xs);
    var r := Visible(xs, c);
    forall i | i in r ensures i in xs && Admits(c, i) {
      var k :| 0 <= k < |r| && r[k] == i;
    }
    forall i | i in xs && Admits(c, i) ensures i in r {
      var k :| 0 <= k < |xs| && xs[k] == i;
    }
  }

  /** What a shown issue satisfies under each active filter: its status name
      and category equal the selected ones, and the lowercased search term
      occurs at some position of its lowercased title, description or
      location. */
  lemma ShownIssueMatches(xs: seq<Issue>, c: Criteria, i: Issue)
    requires i in Visible(xs, c)
    ensures i in xs
    ensures c.status != All ==> StatusName(i.status) == c.status
    ensures c.category != All ==> i.category == c.category
    ensures c.search != "" ==>
              || (exists p :: OccursAt(Lower(i.title), Lower(c.search), p))
              || (exists p :: OccursAt(Lower(i.description), Lower(c.search), p))
              || (exists p :: OccursAt(Lower(i.location), Lower(c.search), p))
  {
    VisibleExactly(xs, c);
    var t := Lower(c.search);
    IncludesIffOccurs(Lower(i.title), t);
    IncludesIffOccurs(Lower(i.description), t);
    IncludesIffOccurs(Lower(i.location), t);
  }

  /** Filtering the shown list again by the same controls changes nothing. */
  lemma {:induction false} VisibleIdempotent(xs: seq<Issue>, c: Criteria)
    ensures Visible(Visible(xs, c), c) == Visible(xs, c)
  {
    VisibleIsSinglePass(xs, c);
    VisibleIsSinglePass(Visible(xs, c), c);
    FilterIdempotent(Admitter(c), xs);
  }

  /** The three steps commute: every order of application shows the same
      issues in the same order. */
  lemma StepOrderIrrelevant(xs: seq<Issue>, c: Criteria)
    ensures StatusStep(c.status, CategoryStep(c.category, SearchStep(c.search, xs))) == Visible(xs, c)
    ensures CategoryStep(c.category, SearchStep(c.search, StatusStep(c.status, xs))) == Visible(xs, c)
    ensures StatusStep(c.status, SearchStep(c.search, CategoryStep(c.category, xs))) == Visible(xs, c)
    ensures SearchStep(c.search, CategoryStep(c.category, StatusStep(c.status, xs))) == Visible(xs, c)
    ensures SearchStep(c.search, StatusStep(c.status, CategoryStep(c.category, xs))) == Visible(xs, c)
  {
    var s, t, g := SearchGate(c.search), StatusGate(c.status), CategoryGate(c.category);
    // Rewrite every step, wherever it stands, as a filter by its gate.
    forall ys: seq<Issue>
      ensures SearchStep(c.search, ys) == Filter(s, ys)
      ensures StatusStep(c.status, ys) == Filter(t, ys)
      ensures CategoryStep(c.category, ys) == Filter(g, ys)
    {
      SearchStepIsFilter(c.search, ys);
      StatusStepIsFilter(c.status, ys);
      CategoryStepIsFilter(c.category, ys);
    }
    // Every other order reaches the source's category(status(search(xs)))
    // by swapping neighbouring filters.
    FilterCommute(t, g, Filter(s, xs));
    FilterCommute(s, t, xs);
    FilterCommute(s, g, xs);
    FilterCommute(g, t, xs);
    FilterCommute(s, t, Filter(g, xs));
  }

  /** `" "` is a real search term: it hides every issue none of whose three
      texts contains a space. */
  lemma BlankSearchIsNotIgnored(i: Issue)
    requires NoSpace(i.title) && NoSpace(i.description) && NoSpace(i.location)
    ensures Visible([i], Criteria(" ", All, All)) == []
  {
    assert Lower(" ") == " ";
    NoSpaceHasNoBlank(i.title);
    NoSpaceHasNoBlank(i.description);
    NoSpaceHasNoBlank(i.location);
  }

  lemma NoSpaceHasNoBlank(w: string)
    requires NoSpace(w)
    ensures !Includes(Lower(w), " ")
  {
    IncludesIffOccurs(Lower(w), " ");
    forall p | 0 <= p < |w|
      ensures !OccursAt(Lower(w), " ", p)
    {
      assert Lower(w)[p..p + 1][0] == Lower(w)[p] != ' ';
    }
  }

  // ---------------------------------------------------------------------
  // Summary counts
  // ---------------------------------------------------------------------

  /** The four stat cards. */
  datatype Aggregates = Aggregates(total: nat, pending: nat, inProgress: nat, resolved: nat)

  /** The stat cards, computed from the whole list. */
  function Aggregate(xs: seq<Issue>): (a: Aggregates)
    ensures a.total == |xs|
    ensures a.pending == CountStatus(xs, Pending) && a.inProgress == CountStatus(xs, InProgress)
    ensures a.resolved == CountStatus(xs, Resolved)
    ensures a.pending + a.inProgress + a.resolved == a.total
    ensures a.pending == 0 <==> forall k :: 0 <= k < |xs| ==> xs[k].status != Pending
  {
    StatusPartition(xs);
    CountZeroIffAbsent(xs, Pending);
    Aggregates(|xs|, CountStatus(xs, Pending), CountStatus(xs, InProgress), CountStatus(xs, Resolved))
  }

  // ---------------------------------------------------------------------
  // Page state
  // ---------------------------------------------------------------------

  datatype DashboardState = DashboardState(issues: seq<Issue>, criteria: Criteria, loading: bool)

  /** Before the fetch settles: nothing loaded, no filter, spinner on. */
  const Initial := DashboardState([], Unfiltered, true)

  /** `searchParams.get('category')` is truthy: present and not empty. */
  predicate CategoryGiven(categoryParam: Option<string>) {
    categoryParam.Some? && categoryParam.value != ""
  }

  /** The fetch effect, run on the state `s` the page is in: `Initial` on
      the first mount, and the current state each time the query string
      changes while the page stays mounted. On success the issues are
      replaced and a non-empty `category` parameter becomes the category
      filter; an absent or empty one leaves the filter as it was. On
      failure only the spinner changes. Search and status are never
      touched. */
  function Mount(s: DashboardState, fetched: Fetch<seq<Issue>>, categoryParam: Option<string>): (r: DashboardState)
    ensures !r.loading
    ensures r.criteria.search == s.criteria.search && r.criteria.status == s.criteria.status
    ensures fetched.Err? ==> r == s.(loading := false)
    ensures fetched.Ok? ==> r.issues == fetched.data
    ensures fetched.Ok? && CategoryGiven(categoryParam) ==> r.criteria.category == categoryParam.value
    ensures fetched.Ok? && !CategoryGiven(categoryParam) ==> r.criteria.category == s.criteria.category
  {
    match fetched
    case Err => s.(loading := false)
    case Ok(data) =>
      var category := if CategoryGiven(categoryParam) then categoryParam.value else s.criteria.category;
      DashboardState(data, s.criteria.(category := category), false)
  }

  /** The first mount: no search and every status; a failed fetch leaves
      nothing loaded and nothing filtered; a category is filtered exactly
      when the fetch succeeded and the query names one other than `all`. */
  lemma FirstMount(fetched: Fetch<seq<Issue>>, categoryParam: Option<string>)
    ensures var r := Mount(Initial, fetched, categoryParam);
            && !r.loading && r.criteria.search == "" && r.criteria.status == All
            && (fetched.Err? ==> r.issues == [] && r.criteria == Unfiltered)
            && (fetched.Ok? && !CategoryGiven(categoryParam) ==> r.criteria.category == All)
            && (r.criteria.category != All <==>
                  fetched.Ok? && CategoryGiven(categoryParam) && categoryParam.value != All)
  {
  }

  /** As written, the category of an earlier query outlives it. The
      navigation bar's Report Status link leads to `/dashboard` with no
      query; followed from `/dashboard?category=roads` it re-runs the effect
      and the list stays restricted to roads, while the same URL opened
      afresh shows every category. */
  lemma StickyCategory(xs: seq<Issue>)
    ensures var roads := Mount(Initial, Ok(xs), Some("roads"));
            && Mount(roads, Ok(xs), None).criteria.category == "roads"
            && Mount(Initial, Ok(xs), None).criteria.category == All
  {
  }

  /** The effect as evidently intended: the query alone decides the
      category filter, `all` when it names none. Everything else is as in
      `Mount`. */
  function MountIntended(s: DashboardState, fetched: Fetch<seq<Issue>>, categoryParam: Option<string>): (r: DashboardState)
    ensures !r.loading
    ensures r.criteria.search == s.criteria.search && r.criteria.status == s.criteria.status
    ensures fetched.Err? ==> r == s.(loading := false)
    ensures fetched.Ok? ==> r.issues == fetched.data
    ensures fetched.Ok? ==>
              r.criteria.category == if CategoryGiven(categoryParam) then categoryParam.value else All
  {
    match fetched
    case Err => s.(loading := false)
    case Ok(data) =>
      var category := if CategoryGiven(categoryParam) then categoryParam.value else All;
      DashboardState(data, s.criteria.(category := category), false)
  }

  /** With the intended effect, two visits to the same URL filter the same
      category whatever came before; on a first mount it agrees with the
      effect as written. */
  lemma IntendedFollowsUrl(s: DashboardState, t: DashboardState, xs: seq<Issue>, ys: seq<Issue>,
                           categoryParam: Option<string>, fetched: Fetch<seq<Issue>>)
    ensures MountIntended(s, Ok(xs), categoryParam).criteria.category
            == MountIntended(t, Ok(ys), categoryParam).criteria.category
    ensures MountIntended(Initial, fetched, categoryParam) == Mount(Initial, fetched, categoryParam)
  {
  }

  /** Typing in the search box. */
  function SetSearch(s: DashboardState, term: string): DashboardState {
    s.(criteria := s.criteria.(search := term))
  }

  /** Choosing a status. */
  function SetStatus(s: DashboardState, f: string): DashboardState {
    s.(criteria := s.criteria.(status := f))
  }

  /** Choosing a category. */
  function SetCategory(s: DashboardState, f: string): DashboardState {
    s.(criteria := s.criteria.(category := f))
  }

  /** What the page renders once loaded. */
  datatype DashboardView = DashboardView(shown: seq<Issue>, counts: Aggregates)

  /** The list under the filters next to the counts of the whole list: the
      cards add up to the full length, which bounds the shown list. The
      shown list is one filter of the whole list by the combined condition,
      so it keeps the list's order and its repetitions. */
  function View(s: DashboardState): (v: DashboardView)
    ensures v.counts == Aggregate(s.issues)
    ensures v.counts.total == |s.issues|
    ensures v.counts.pending + v.counts.inProgress + v.counts.resolved == v.counts.total
    ensures |v.shown| <= v.counts.total
    ensures forall i :: i in v.shown <==> i in s.issues && Admits(s.criteria, i)
    ensures v.shown == Filter(Admitter(s.criteria), s.issues) && IsSubsequence(v.shown, s.issues)
  {
    VisibleExactly(s.issues, s.criteria);
    VisibleIsSinglePass(s.issues, s.criteria);
    DashboardView(Visible(s.issues, s.criteria), Aggregate(s.issues))
  }

  /** Changing any control changes the list but never the counts. */
  lemma CountsIgnoreControls(s: DashboardState, term: string, status: string, category: string)
    ensures View(SetSearch(s, term)).counts == View(s).counts
    ensures View(SetStatus(s, status)).counts == View(s).counts
    ensures View(SetCategory(s, category)).counts == View(s).counts
  {
  }

  // ---------------------------------------------------------------------
  // Scenarios on the service fixture
  // ---------------------------------------------------------------------

  /** Selecting "resolved" shows only the third fixture issue. */
  lemma FixtureResolvedScenario()
    ensures Visible(MockIssues(), Criteria("", "resolved", All)) == [MockIssues()[2]]
  {
    var xs := MockIssues();
    assert xs[1..][1..] == [xs[2]];
  }

  /** On the fixture the cards read one pending, one in progress, one
      resolved. */
  lemma FixtureCards()
    ensures Aggregate(MockIssues()) == Aggregates(3, 1, 1, 1)
  {
    FixtureCounts();
  }

  /** Searching ignores case: a term and its lowercase form select alike. */
  lemma SearchIgnoresCase(term: string, i: Issue)
    ensures SearchHit(term, i) <==> SearchHit(Lower(term), i)
  {
    LowerIdempotent(term);
  }

  /** The search is case-insensitive: "MAIN" finds the street-light issue
      through its location "Main Street, Block 5". */
  lemma UpperCaseSearchFindsFixture()
    ensures MockIssues()[0] in Visible(MockIssues(), Criteria("MAIN", All, All))
  {
    var loc := MockIssues()[0].location;
    assert Lower("MAIN") == "main" == Lower(loc[..4]) by {
      LowerCapitalized(loc[..4]);
    }
    assert Lower(loc)[..4] == Lower(loc[..4]);
    assert OccursAt(Lower(loc), "main", 0);
    OccursIncluded(Lower(loc), "main", 0);
    VisibleExactly(MockIssues(), Criteria("MAIN", All, All));
  }
}

=== FILE: home.dfy ===
/** The Home page: category shortcut tiles into the Dashboard, the report
    status cards, and the five most recent reports. */
module Home {
  import opened Outcome
  import opened Services
  import opened Text
  import opened Stats
  import Dashboard

  /** A "Quick Reports by Category" tile. Its count is a constant of the
      page, not derived from any issue list; its link is the Dashboard path
      with `slug` as the `category` query parameter. */
  datatype Tile = Tile(name: string, count: nat, slug: string)

  const CategoryQuery := "/dashboard?category="

  /** The link a tile opens. */
  function Path(t: Tile): string {
    CategoryQuery + t.slug
  }

  function CategoryTiles(): seq<Tile> {
    [ Tile("Infrastructure", 12, "infrastructure"),
      Tile("Roads", 8, "roads"),
      Tile("Sanitation", 5, "sanitation"),
      Tile("Lighting", 3, "lighting"),
      Tile("Parks", 2, "parks"),
      Tile("Utilities", 7, "utilities") ]
  }

  /** The tile links to the category it is named after: the query value is
      the tile's name, lowercased. */
  predicate LinksToOwnCategory(t: Tile) {
    Path(t) == CategoryQuery + Lower(t.name)
  }

  lemma TileSlug(k: nat)
    requires k < |CategoryTiles()|
    ensures CategoryTiles()[k].slug == Lower(CategoryTiles()[k].name)
  {
    var t := CategoryTiles()[k];
    NameLowersToSlug(t.name, t.slug);
  }

  /** A capitalised one-word name lowers to the slug that differs from it
      only in the first letter. */
  lemma NameLowersToSlug(name: string, slug: string)
    requires |name| > 0 && IsUpper(name[0]) && forall i :: 1 <= i < |name| ==> !IsUpper(name[i])
    requires |slug| == |name| && slug[0] == LowerChar(name[0]) && slug[1..] == name[1..]
    ensures slug == Lower(name)
  {
    LowerCapitalized(name);
    assert slug == [slug[0]] + slug[1..];
  }

  /** Every tile links to its own, non-empty category, never to "all". */
  lemma TilePathsFollowNames()
    ensures |CategoryTiles()| == 6
    ensures forall k :: 0 <= k < |CategoryTiles()| ==>
              LinksToOwnCategory(CategoryTiles()[k])
              && CategoryTiles()[k].slug != "" && CategoryTiles()[k].slug != Dashboard.All
  {
    forall k | 0 <= k < |CategoryTiles()|
      ensures CategoryTiles()[k].slug == Lower(CategoryTiles()[k].name)
    {
      TileSlug(k);
    }
  }

  /** The `category` parameter the Dashboard reads from a path of this form.
      Only the one shape the tiles produce is modelled: no decoding and no
      further parameters. */
  function CategoryParam(path: string): (r: Option<string>)
    ensures r.Some? <==> IsPrefix(CategoryQuery, path)
    ensures r.Some? ==> path == CategoryQuery + r.value
  {
    if IsPrefix(CategoryQuery, path) then Some(path[|CategoryQuery|..]) else None
  }

  /** Following a tile opens the Dashboard filtered to exactly the issues of
      that tile's category. */
  lemma TileOpensItsCategory(k: nat, xs: seq<Issue>)
    requires k < |CategoryTiles()|
    ensures var t := CategoryTiles()[k];
            var s := Dashboard.Mount(Dashboard.Initial, Ok(xs), CategoryParam(Path(t)));
            forall i :: i in Dashboard.View(s).shown <==> i in xs && i.category == Lower(t.name)
  {
    TilePathsFollowNames();
    var t := CategoryTiles()[k];
    assert Path(t)[..|CategoryQuery|] == CategoryQuery;
    assert Path(t)[|CategoryQuery|..] == t.slug;
  }

  /** The three "Report Status" cards. */
  datatype ReportStatus = ReportStatus(total: nat, pending: nat, resolved: nat)

  /** The cards over the whole list: pending and resolved together never
      exceed the total, and the in-progress issues make up the difference. */
  function ReportCards(xs: seq<Issue>): (r: ReportStatus)
    ensures r.total == |xs|
    ensures r.pending == CountStatus(xs, Pending) && r.resolved == CountStatus(xs, Resolved)
    ensures r.pending + r.resolved <= r.total
    ensures r.total - r.pending - r.resolved == CountStatus(xs, InProgress)
  {
    StatusPartition(xs);
    ReportStatus(|xs|, CountStatus(xs, Pending), CountStatus(xs, Resolved))
  }

  /** `issues.slice(0, 5)`: the first five issues, or all of them when
      there are fewer, in their original order. */
  function Recent(xs: seq<Issue>): (r: seq<Issue>)
    ensures |r| <= 5
    ensures |xs| <= 5 ==> r == xs
    ensures |xs| > 5 ==> |r| == 5
    ensures forall k :: 0 <= k < |r| ==> r[k] == xs[k]
  {
    if |xs| <= 5 then xs else xs[..5]
  }

  datatype HomeState = HomeState(issues: seq<Issue>, loading: bool)

  /** The fetch effect: a failed fetch leaves the list empty; the page
      stops loading either way. */
  function Mount(fetched: Fetch<seq<Issue>>): (s: HomeState)
    ensures !s.loading
    ensures fetched.Ok? ==> s.issues == fetched.data
    ensures fetched.Err? ==> s.issues == [] && ReportCards(s.issues) == ReportStatus(0, 0, 0)
  {
    HomeState(fetched.GetOr([]), false)
  }

  /** On the mock service the page shows all three fixture issues as recent
      reports, one of them pending and one resolved. */
  lemma HomeOnFixture()
    ensures Recent(Mount(GetIssues()).issues) == MockIssues()
    ensures ReportCards(Mount(GetIssues()).issues) == ReportStatus(3, 1, 1)
  {
    FixtureCounts();
  }
}

=== FILE: outcome.dfy ===
/** Optional values and the outcome of an asynchronous fetch.

    The application awaits promises and catches whatever they reject with,
    without looking at the error; a fetch is therefore modelled as its
    settled outcome, handed to the page logic as an input. */
module Outcome {

  /** A value that may be absent (`undefined` / `null` in the application). */
  datatype Option<+T> = None | Some(value: T) {

    /** The held value, or `default` when there is none. */
    function GetOr(default: T): T {
      match this
      case Some(v) => v
      case None => default
    }
  }

  /** A settled request: it resolved with `data`, or it rejected. */
  datatype Fetch<+T> = Ok(data: T) | Err {

    /** What a page keeps after the request: the data, or the state's
        initial value when the request rejected (the catch block only logs). */
    function GetOr(default: T): T {
      match this
      case Ok(d) => d
      case Err => default
    }
  }
}

=== FILE: profile.dfy ===
/** The Profile page: the signed-in citizen's avatar initials, impact
    counts, and the list of reported issues. The page fetches the whole
    issue list and shows all of it; it does not narrow it to the user. */
module Profile {
  import opened Outcome
  import opened Services
  import opened Text
  import opened Stats
  import opened StatusDisplay

  /** The signed-in user the page shows: a fixed mock record. */
  datatype ProfileUser = ProfileUser(name: string, email: string, joinDate: string)

  const MockUser := ProfileUser("John Doe", "john.doe@example.com", "2024-01-01")

  datatype ProfilePage = ProfilePage(
    initials: string,
    total: nat,
    resolved: nat,
    pending: nat,
    listed: seq<Issue>,
    colors: seq<string>,
    emptyState: bool)

  /** The page once the fetch has settled. */
  function Render(user: ProfileUser, fetched: Fetch<seq<Issue>>): (p: ProfilePage)
    ensures p.listed == fetched.GetOr([])
    ensures p.total == |p.listed|
    ensures p.resolved == CountStatus(p.listed, Resolved) && p.pending == CountStatus(p.listed, Pending)
    ensures p.resolved + p.pending <= p.total
    ensures p.total - p.resolved - p.pending == CountStatus(p.listed, InProgress)
    ensures p.emptyState <==> |p.listed| == 0
    ensures fetched.Err? ==> p.emptyState
    ensures p.initials == Initials(user.name)
    ensures |p.initials| <= SpaceCount(user.name) + 1
    ensures |p.colors| == |p.listed|
    ensures forall k :: 0 <= k < |p.listed| ==> p.colors[k] == StatusColor(p.listed[k].status)
  {
    var xs := fetched.GetOr([]);
    StatusPartition(xs);
    InitialsShape(user.name);
    ProfilePage(
      Initials(user.name),
      |xs|,
      CountStatus(xs, Resolved),
      CountStatus(xs, Pending),
      xs,
      seq(|xs|, k requires 0 <= k < |xs| => StatusColor(xs[k].status)),
      |xs| == 0)
  }

  /** A first and a last name give two initials, as "John Doe" gives "JD". */
  lemma FullNameInitials(first: string, last: string)
    requires |first| > 0 && |last| > 0 && NoSpace(first) && NoSpace(last)
    ensures Render(ProfileUser(first + " " + last, "", ""), Err).initials == [first[0], last[0]]
  {
    var ws := [first, last];
    assert JoinWords(ws) == first + " " + last by {
      assert JoinWords(ws[1..]) == last;
    }
    assert Heads(ws[1..]) == [last[0]] by {
      assert Heads(ws[1..][1..]) == "";
    }
    InitialsOfWords(ws);
  }

  /** The mock user's avatar reads "JD", whatever the fetch gave. */
  lemma MockUserInitials(fetched: Fetch<seq<Issue>>)
    ensures Render(MockUser, fetched).initials == "JD"
  {
    FullNameInitials("John", "Doe");
    assert MockUser.name == "John" + " " + "Doe";
  }
}

=== FILE: report_issue.dfy ===
/** The Report Issue form: its category choices, the required-field guard
    on submit, the draft handed to `createIssue`, and the reset after a
    successful report. */
module ReportIssue {
  import opened Outcome
  import opened Services
  import Home

  /** A category choice of the select: the stored value and its caption. */
  datatype CategoryOption = CategoryOption(value: string, caption: string)

  function Categories(): seq<CategoryOption> {
    [ CategoryOption("infrastructure", "Infrastructure"),
      CategoryOption("roads", "Roads & Transportation"),
      CategoryOption("sanitation", "Sanitation & Waste"),
      CategoryOption("lighting", "Street Lighting"),
      CategoryOption("parks", "Parks & Recreation"),
      CategoryOption("utilities", "Utilities"),
      CategoryOption("safety", "Public Safety"),
      CategoryOption("other", "Other") ]
  }

  function CategoryValues(): seq<string> {
    seq(|Categories()|, k requires 0 <= k < |Categories()| => Categories()[k].value)
  }

  /** Eight choices with pairwise distinct values. */
  lemma CategoriesDistinct()
    ensures |CategoryValues()| == 8
    ensures forall j, k :: 0 <= j < k < 8 ==> CategoryValues()[j] != CategoryValues()[k]
  {
    var vs := CategoryValues();
    assert vs == ["infrastructure", "roads", "sanitation", "lighting", "parks",
                  "utilities", "safety", "other"];
  }

  /** Every Home tile leads to a category that a report can be filed under. */
  lemma TilesAreReportCategories(k: nat)
    requires k < |Home.CategoryTiles()|
    ensures Home.CategoryTiles()[k].slug in CategoryValues()
  {
    assert CategoryValues()[..6] == ["infrastructure", "roads", "sanitation", "lighting", "parks",
                  "utilities"];
    assert Home.CategoryTiles()[k].slug == CategoryValues()[k];
  }

  /** The selected picture; only its presence matters here. */
  datatype ImageFile = ImageFile(name: string)

  /** The form's state. `preview` is the data URL read from the image. */
  datatype Form = Form(
    title: string,
    description: string,
    category: string,
    location: string,
    image: Option<ImageFile>,
    preview: Option<string>,
    submitting: bool)

  /** The form as the page opens, and as a successful report leaves it. */
  const Blank := Form("", "", "", "", None, None, false)

  /** The guard: each required field is a non-empty string. Nothing is
      trimmed, so white space alone passes. */
  predicate Complete(f: Form) {
    f.title != "" && f.description != "" && f.category != "" && f.location != ""
  }

  /** `{...formData, location, imageUrl}`: the form's text fields, and the
      object URL of the picture when one is selected. No id or status. */
  function DraftFrom(f: Form, objectUrl: string): (d: Draft)
    ensures d.id.None? && d.userId.None? && d.status.None? && d.createdAt.None?
    ensures d.title == Some(f.title) && d.description == Some(f.description)
    ensures d.category == Some(f.category) && d.location == Some(f.location)
    ensures d.imageUrl == if f.image.Some? then Some(objectUrl) else None
  {
    Draft(None, None, Some(f.title), Some(f.description), Some(f.category), None,
          Some(f.location), None, if f.image.Some? then Some(objectUrl) else None)
  }

  /** The toast shown after a submit. */
  datatype Notice = MissingInformation | Reported | SubmissionFailed

  /** What a submit leaves behind: the form, the draft sent to the service
      (if any), and the toast. */
  datatype Submission = Submission(form: Form, sent: Option<Draft>, notice: Notice)

  /** `handleSubmit`. `objectUrl` stands for `URL.createObjectURL(image)`
      and `created` for the settled `createIssue` call. */
  function Submit(f: Form, objectUrl: string, created: Fetch<Issue>): (r: Submission)
    ensures r.sent.Some? <==> Complete(f)
    ensures !Complete(f) ==> r.form == f && r.notice == MissingInformation
    ensures Complete(f) ==> r.sent == Some(DraftFrom(f, objectUrl)) && !r.form.submitting
    ensures Complete(f) && created.Ok? ==> r.form == Blank && r.notice == Reported
    ensures Complete(f) && created.Err? ==>
              r.form == f.(submitting := false) && r.notice == SubmissionFailed
  {
    if !Complete(f) then
      Submission(f, None, MissingInformation)
    else
      var draft := DraftFrom(f, objectUrl);
      match created
      case Ok(_) => Submission(Blank, Some(draft), Reported)
      case Err => Submission(f.(submitting := false), Some(draft), SubmissionFailed)
  }

  /** An empty required field blocks the submit and nothing is sent. */
  lemma EmptyFieldBlocksSubmit(f: Form, objectUrl: string, created: Fetch<Issue>)
    requires f.title == "" || f.description == "" || f.category == "" || f.location == ""
    ensures Submit(f, objectUrl, created).sent.None?
    ensures Submit(f, objectUrl, created).form == f
  {
  }

  /** Fields of white space only are accepted and sent as they are. */
  lemma BlankFieldsPass(objectUrl: string)
    ensures var f := Form(" ", " ", " ", " ", None, None, false);
            Submit(f, objectUrl, Err).sent == Some(DraftFrom(f, objectUrl))
  {
  }

  /** A report filed through the form and the mock service becomes a
      pending issue of user 1 carrying the form's fields. */
  lemma ReportedIssueIsPending(f: Form, objectUrl: string, created: Fetch<Issue>, now: int, stamp: string)
    requires Complete(f)
    ensures var i := CreateIssue(Submit(f, objectUrl, created).sent.value, now, stamp);
            && i.status == Pending && i.userId == 1 && i.id == now && i.createdAt == stamp
            && i.title == f.title && i.description == f.description
            && i.category == f.category && i.location == f.location
            && i.imageUrl == (if f.image.Some? then Some(objectUrl) else None)
  {
  }

  /** The Remove button: the picture and its preview are dropped, the text
      fields are kept. */
  function RemoveImage(f: Form): (r: Form)
    ensures r.image.None? && r.preview.None?
    ensures r.title == f.title && r.description == f.description
    ensures r.category == f.category && r.location == f.location
    ensures r.submitting == f.submitting
    ensures Complete(r) <==> Complete(f)
  {
    f.(image := None, preview := None)
  }
}

=== FILE: seqs.dfy ===
/** `Array.prototype.filter` over immutable sequences, and the facts the
    issue pages rely on: a filter only removes elements, keeps the order of
    the rest, is idempotent, and two filters commute. */
module Seqs {

  /** `xs.filter(p)`: the elements satisfying `p`, in their original order;
      `FilterCounts` adds that each is kept as often as it occurs. */
  function Filter<T>(p: T -> bool, xs: seq<T>): (r: seq<T>)
    ensures |r| <= |xs|
    ensures forall k :: 0 <= k < |r| ==> p(r[k]) && r[k] in xs
    ensures forall k :: 0 <= k < |xs| && p(xs[k]) ==> xs[k] in r
  {
    if |xs| == 0 then []
    else if p(xs[0]) then [xs[0]] + Filter(p, xs[1..])
    else Filter(p, xs[1..])
  }

  /** Multiplicities: a value satisfying `p` occurs in the result exactly as
      often as in `xs`, and any other value not at all. */
  lemma {:induction false} FilterCounts<T>(p: T -> bool, xs: seq<T>, x: T)
    ensures multiset(Filter(p, xs))[x] == if p(x) then multiset(xs)[x] else 0
    decreases |xs|
  {
    if |xs| > 0 {
      FilterCounts(p, xs[1..], x);
      assert xs == [xs[0]] + xs[1..];
      assert multiset(xs) == multiset{xs[0]} + multiset(xs[1..]);
      if p(xs[0]) {
        assert multiset(Filter(p, xs)) == multiset{xs[0]} + multiset(Filter(p, xs[1..]));
      }
    }
  }

  /** `idx` places the elements of `a` at strictly increasing positions of `b`. */
  ghost predicate Embedding<T>(idx: seq<nat>, a: seq<T>, b: seq<T>) {
    && |idx| == |a|
    && (forall k :: 0 <= k < |idx| ==> idx[k] < |b| && b[idx[k]] == a[k])
    && (forall k, l :: 0 <= k < l < |idx| ==> idx[k] < idx[l])
  }

  /** `a` is obtained from `b` by deleting elements, without reordering. */
  ghost predicate IsSubsequence<T>(a: seq<T>, b: seq<T>) {
    exists idx :: Embedding(idx, a, b)
  }

  /** The positions of `xs` that `Filter` keeps, in increasing order. */
  lemma {:induction false} FilterPositions<T>(p: T -> bool, xs: seq<T>) returns (idx: seq<nat>)
    ensures Embedding(idx, Filter(p, xs), xs)
    decreases |xs|
  {
    if |xs| == 0 {
      idx := [];
    } else {
      var rest := FilterPositions(p, xs[1..]);
      var shifted := EmbedInTail(rest, Filter(p, xs[1..]), xs);
      if p(xs[0]) {
        idx := [0] + shifted;
        EmbedHead(shifted, Filter(p, xs[1..]), xs);
      } else {
        idx := shifted;
      }
    }
  }

  /** An embedding into the tail of `b` shifts to an embedding into `b`. */
  lemma EmbedInTail<T>(idx: seq<nat>, a: seq<T>, b: seq<T>) returns (shifted: seq<nat>)
    requires |b| > 0 && Embedding(idx, a, b[1..])
    ensures Embedding(shifted, a, b)
    ensures forall k :: 0 <= k < |shifted| ==> shifted[k] > 0
  {
    shifted := seq(|idx|, k requires 0 <= k < |idx| => idx[k] + 1);
    forall k | 0 <= k < |shifted|
      ensures shifted[k] < |b| && b[shifted[k]] == a[k]
    {
      assert b[shifted[k]] == b[1..][idx[k]];
    }
  }

  /** Keeping the head of `b` extends an embedding that avoids position 0. */
  lemma EmbedHead<T>(idx: seq<nat>, a: seq<T>, b: seq<T>)
    requires |b| > 0 && Embedding(idx, a, b)
    requires forall k :: 0 <= k < |idx| ==> idx[k] > 0
    ensures Embedding([0] + idx, [b[0]] + a, b)
  {
    var idx', a' := [0] + idx, [b[0]] + a;
    forall k | 0 <= k < |idx'|
      ensures idx'[k] < |b| && b[idx'[k]] == a'[k]
    {
      if k > 0 {
        assert idx'[k] == idx[k - 1] && a'[k] == a[k - 1];
      }
    }
    forall k, l | 0 <= k < l < |idx'|
      ensures idx'[k] < idx'[l]
    {
      if k > 0 {
        assert idx'[k] == idx[k - 1] && idx'[l] == idx[l - 1];
      }
    }
  }

  /** A filter's result is an order-preserving subsequence of its input. */
  lemma FilterIsSubsequence<T>(p: T -> bool, xs: seq<T>)
    ensures IsSubsequence(Filter(p, xs), xs)
  {
    var idx := FilterPositions(p, xs);
  }

  /** Filtering distributes over concatenation. */
  lemma {:induction false} FilterAppend<T>(p: T -> bool, a: seq<T>, b: seq<T>)
    ensures Filter(p, a + b) == Filter(p, a) + Filter(p, b)
    decreases |a|
  {
    if |a| == 0 {
      assert a + b == b;
    } else {
      assert (a + b)[0] == a[0];
      assert (a + b)[1..] == a[1..] + b;
      FilterAppend(p, a[1..], b);
    }
  }

  /** A sequence all of whose elements pass is left as it is. */
  lemma {:induction false} FilterKeepsAll<T>(p: T -> bool, xs: seq<T>)
    requires forall k :: 0 <= k < |xs| ==> p(xs[k])
    ensures Filter(p, xs) == xs
    decreases |xs|
  {
    if |xs| > 0 {
      FilterKeepsAll(p, xs[1..]);
    }
  }

  /** Filtering again by the same predicate changes nothing. */
  lemma {:induction false} FilterIdempotent<T>(p: T -> bool, xs: seq<T>)
    ensures Filter(p, Filter(p, xs)) == Filter(p, xs)
  {
    var r := Filter(p, xs);
    assert forall k :: 0 <= k < |r| ==> r[k] in r;
    FilterKeepsAll(p, r);
  }

  /** Two filters applied in either order give the same sequence. */
  lemma {:induction false} FilterCommute<T>(p: T -> bool, q: T -> bool, xs: seq<T>)
    ensures Filter(p, Filter(q, xs)) == Filter(q, Filter(p, xs))
    decreases |xs|
  {
    if |xs| > 0 {
      var x, rest := xs[0], xs[1..];
      assert xs == [x] + rest;
      FilterAppend(q, [x], rest);
      FilterAppend(p, [x], rest);
      FilterAppend(p, Filter(q, [x]), Filter(q, rest));
      FilterAppend(q, Filter(p, [x]), Filter(p, rest));
      FilterCommute(p, q, rest);
    }
  }

  /** Filtering by `p` and then by `q` keeps exactly the elements passing both. */
  lemma {:induction false} FilterFuse<T>(p: T -> bool, q: T -> bool, pq: T -> bool, xs: seq<T>)
    requires forall k :: 0 <= k < |xs| ==> pq(xs[k]) == (p(xs[k]) && q(xs[k]))
    ensures Filter(q, Filter(p, xs)) == Filter(pq, xs)
    decreases |xs|
  {
    if |xs| > 0 {
      FilterFuse(p, q, pq, xs[1..]);
    }
  }

  /** Predicates that agree on every element filter alike. */
  lemma {:induction false} FilterAgree<T>(p: T -> bool, q: T -> bool, xs: seq<T>)
    requires forall k :: 0 <= k < |xs| ==> p(xs[k]) == q(xs[k])
    ensures Filter(p, xs) == Filter(q, xs)
    decreases |xs|
  {
    if |xs| > 0 {
      FilterAgree(p, q, xs[1..]);
    }
  }
}

=== FILE: services.dfy ===
/** The data contracts of the API layer and the mock issue service: the
    `Issue` and `User` records, a fixed three-issue fixture, `createIssue`
    and `updateIssueStatus`. The issue service never touches the network:
    each of its operations resolves immediately. */
module Services {
  import opened Outcome

  /** `Issue['status']`: the string-literal union admits three values. */
  datatype Status = Pending | InProgress | Resolved

  /** The literal each status is written as. */
  function StatusName(s: Status): string {
    match s
    case Pending => "pending"
    case InProgress => "in-progress"
    case Resolved => "resolved"
  }

  const StatusNames: seq<string> := ["pending", "in-progress", "resolved"]

  /** The names are exactly the three literals of the union, one per status. */
  lemma StatusNamesExact()
    ensures forall s :: StatusName(s) in StatusNames
    ensures forall t :: t in StatusNames ==> exists s :: StatusName(s) == t
    ensures forall s, s' :: StatusName(s) == StatusName(s') ==> s == s'
  {
    assert StatusName(Pending) == StatusNames[0];
    assert StatusName(InProgress) == StatusNames[1];
    assert StatusName(Resolved) == StatusNames[2];
  }

  /** A reported civic problem. Ids and timestamps come from the clock in
      the application and are plain values here. */
  datatype Issue = Issue(
    id: int,
    userId: int,
    title: string,
    description: string,
    category: string,
    status: Status,
    location: string,
    createdAt: string,
    imageUrl: Option<string>)

  /** A directory user as the placeholder REST API returns it. */
  datatype User = User(
    id: int,
    name: string,
    username: string,
    email: string,
    phone: string,
    website: string)

  /** `Partial<Issue>`: every field may be absent (`None`). */
  datatype Draft = Draft(
    id: Option<int>,
    userId: Option<int>,
    title: Option<string>,
    description: Option<string>,
    category: Option<string>,
    status: Option<Status>,
    location: Option<string>,
    createdAt: Option<string>,
    imageUrl: Option<string>)

  /** The draft that carries every field of `i`. */
  function DraftOf(i: Issue): Draft {
    Draft(Some(i.id), Some(i.userId), Some(i.title), Some(i.description),
          Some(i.category), Some(i.status), Some(i.location), Some(i.createdAt),
          i.imageUrl)
  }

  /** The issue service's fixture. */
  function MockIssues(): seq<Issue> {
    [ Issue(1, 1, "Street Light Not Working",
            "The street light on Main Street has been out for 3 days",
            "infrastructure", Pending, "Main Street, Block 5",
            "2024-01-15T10:30:00Z", None),
      Issue(2, 1, "Pothole on Highway",
            "Large pothole causing traffic issues",
            "roads", InProgress, "Highway 101, Mile 23",
            "2024-01-14T14:20:00Z", None),
      Issue(3, 1, "Garbage Collection Missed",
            "Weekly garbage collection was missed in our area",
            "sanitation", Resolved, "Oak Avenue, Sector 12",
            "2024-01-13T08:15:00Z", None) ]
  }

  /** `issueService.getIssues()`: resolves with the fixture, never rejects. */
  function GetIssues(): (r: Fetch<seq<Issue>>)
    ensures r.Ok?
    ensures |r.data| == 3
    ensures forall k :: 0 <= k < 3 ==> r.data[k].id == k + 1 && r.data[k].userId == 1
    ensures r.data[0].status == Pending && r.data[1].status == InProgress
            && r.data[2].status == Resolved
  {
    Ok(MockIssues())
  }

  /** `issueService.createIssue(draft)`: the defaults `id = now`,
      `userId = 1`, `status = 'pending'`, `createdAt = stamp`, then every
      field the caller supplied, which wins because it is spread last.
      `now` and `stamp` stand for `Date.now()` and the ISO time string.
      A missing text field reads as the empty string here. */
  function CreateIssue(draft: Draft, now: int, stamp: string): (r: Issue)
    ensures draft.status.None? ==> r.status == Pending
    ensures draft.userId.None? ==> r.userId == 1
    ensures draft.id.None? ==> r.id == now
    ensures draft.createdAt.None? ==> r.createdAt == stamp
    ensures draft.status.Some? ==> r.status == draft.status.value
    ensures draft.id.Some? ==> r.id == draft.id.value
    ensures draft.userId.Some? ==> r.userId == draft.userId.value
    ensures draft.title.Some? ==> r.title == draft.title.value
    ensures draft.description.Some? ==> r.description == draft.description.value
    ensures draft.category.Some? ==> r.category == draft.category.value
    ensures draft.location.Some? ==> r.location == draft.location.value
    ensures r.imageUrl == draft.imageUrl
  {
    Issue(
      draft.id.GetOr(now),
      draft.userId.GetOr(1),
      draft.title.GetOr(""),
      draft.description.GetOr(""),
      draft.category.GetOr(""),
      draft.status.GetOr(Pending),
      draft.location.GetOr(""),
      draft.createdAt.GetOr(stamp),
      draft.imageUrl)
  }

  /** A draft holding a whole issue creates that very issue: every default
      is overridden, whatever the clock says. */
  lemma CreateFromFullDraft(i: Issue, now: int, stamp: string)
    ensures CreateIssue(DraftOf(i), now, stamp) == i
  {
  }

  /** The echo `updateIssueStatus` resolves with. */
  datatype StatusChange = StatusChange(id: int, status: Status)

  /** `issueService.updateIssueStatus(id, status)`: resolves with its
      arguments; there is no store to look the id up in and no failure. */
  function UpdateIssueStatus(id: int, status: Status): (r: Fetch<StatusChange>)
    ensures r.Ok? && r.data.id == id && r.data.status == status
  {
    Ok(StatusChange(id, status))
  }
}

=== FILE: stats.dfy ===
/** Counting issues by status, as the Dashboard, Home and Profile pages do
    with `issues.filter(issue => issue.status === s).length`. */
module Stats {
  import opened Services
  import opened Seqs

  function HasStatus(s: Status): Issue -> bool {
    (i: Issue) => i.status == s
  }

  /** The number of issues with status `s`. */
  function CountStatus(xs: seq<Issue>, s: Status): (n: nat)
    ensures n <= |xs|
  {
    |Filter(HasStatus(s), xs)|
  }

  /** Every issue has exactly one of the three statuses, so the three
      counts add up to the length of the list. */
  lemma {:induction false} StatusPartition(xs: seq<Issue>)
    ensures CountStatus(xs, Pending) + CountStatus(xs, InProgress)
            + CountStatus(xs, Resolved) == |xs|
    decreases |xs|
  {
    if |xs| > 0 {
      StatusPartition(xs[1..]);
    }
  }

  /** A count is zero exactly when no issue has that status. */
  lemma {:induction false} CountZeroIffAbsent(xs: seq<Issue>, s: Status)
    ensures CountStatus(xs, s) == 0 <==> forall k :: 0 <= k < |xs| ==> xs[k].status != s
    decreases |xs|
  {
    if |xs| > 0 {
      CountZeroIffAbsent(xs[1..], s);
      if forall k :: 0 <= k < |xs[1..]| ==> xs[1..][k].status != s {
        if xs[0].status != s {
          forall k | 0 <= k < |xs| ensures xs[k].status != s {
            if k > 0 { assert xs[k] == xs[1..][k - 1]; }
          }
        }
      } else {
        var k :| 0 <= k < |xs[1..]| && xs[1..][k].status == s;
        assert xs[k + 1].status == s;
      }
    }
  }

  /** Counts over a concatenation add up. */
  lemma CountAppend(a: seq<Issue>, b: seq<Issue>, s: Status)
    ensures CountStatus(a + b, s) == CountStatus(a, s) + CountStatus(b, s)
  {
    FilterAppend(HasStatus(s), a, b);
  }

  /** The service fixture holds one issue of each status. */
  lemma FixtureCounts()
    ensures CountStatus(MockIssues(), Pending) == 1
    ensures CountStatus(MockIssues(), InProgress) == 1
    ensures CountStatus(MockIssues(), Resolved) == 1
  {
    var xs := MockIssues();
    assert xs[1..][1..] == [xs[2]];
  }
}

=== FILE: status_display.dfy ===
/** How a status is styled: the colour classes of the Dashboard and Profile
    badges (`getStatusColor`, defined identically on both pages) and the
    badge variant of Home's recent reports. */
module StatusDisplay {
  import opened Services

  const PendingColor := "bg-yellow-100 text-yellow-800"
  const InProgressColor := "bg-blue-100 text-blue-800"
  const ResolvedColor := "bg-green-100 text-green-800"
  /** The `default` branch of the switch. */
  const FallbackColor := "bg-gray-100 text-gray-800"

  /** `getStatusColor(status)`. */
  function StatusColor(s: Status): (r: string)
    ensures r == PendingColor <==> s == Pending
    ensures r == InProgressColor <==> s == InProgress
    ensures r == ResolvedColor <==> s == Resolved
    ensures r != FallbackColor
  {
    match s
    case Pending => PendingColor
    case InProgress => InProgressColor
    case Resolved => ResolvedColor
  }

  /** Different statuses are told apart by colour. */
  lemma StatusColorInjective(s: Status, s': Status)
    requires StatusColor(s) == StatusColor(s')
    ensures s == s'
  {
  }

  /** The badge variant of a recent report on the Home page: resolved is
      `default`, in-progress is `secondary`, anything else `outline`. */
  function BadgeVariant(s: Status): (r: string)
    ensures r == "default" <==> s == Resolved
    ensures r == "secondary" <==> s == InProgress
    ensures r == "outline" <==> s == Pending
  {
    match s
    case Resolved => "default"
    case InProgress => "secondary"
    case _ => "outline"
  }
}

=== FILE: text.dfy ===
/** The string operations the pages rely on: `toLowerCase`, `includes`,
    `trim`, `split(' ')` and the avatar initials built from a name.

    Lowercasing is modelled for ASCII letters only; every other character
    is left as it is. */
module Text {

  // ---------------------------------------------------------------------
  // Lowercasing
  // ---------------------------------------------------------------------

  predicate IsUpper(c: char) {
    'A' <= c <= 'Z'
  }

  function LowerChar(c: char): char {
    if IsUpper(c) then (c as int + 32) as char else c
  }

  /** `s.toLowerCase()` restricted to ASCII: every upper-case letter becomes
      its lower-case partner and nothing else changes. */
  function Lower(s: string): (r: string)
    ensures |r| == |s|
    ensures forall i :: 0 <= i < |r| ==> !IsUpper(r[i])
    ensures forall i :: 0 <= i < |s| && !IsUpper(s[i]) ==> r[i] == s[i]
    ensures forall i :: 0 <= i < |s| && IsUpper(s[i]) ==> r[i] as int == s[i] as int + 32
  {
    seq(|s|, i requires 0 <= i < |s| => LowerChar(s[i]))
  }

  /** Lowercasing twice is lowercasing once. */
  lemma LowerIdempotent(s: string)
    ensures Lower(Lower(s)) == Lower(s)
  {
    var l := Lower(s);
    assert forall i :: 0 <= i < |l| ==> Lower(l)[i] == l[i];
  }

  /** A capitalised word with an otherwise lower-case tail loses only its
      capital. */
  lemma LowerCapitalized(w: string)
    requires |w| > 0 && IsUpper(w[0])
    requires forall i :: 1 <= i < |w| ==> !IsUpper(w[i])
    ensures Lower(w) == [LowerChar(w[0])] + w[1..]
  {
  }

  // ---------------------------------------------------------------------
  // Substring search
  // ---------------------------------------------------------------------

  /** `t` occurs in `s` starting at index `i`. */
  predicate OccursAt(s: string, t: string, i: int) {
    0 <= i && i + |t| <= |s| && s[i..i + |t|] == t
  }

  predicate IsPrefix(t: string, s: string) {
    |t| <= |s| && s[..|t|] == t
  }

  /** `s.includes(t)`: scan the start positions from left to right. */
  function Includes(s: string, t: string): bool
    decreases |s|
  {
    IsPrefix(t, s) || (|s| > 0 && Includes(s[1..], t))
  }

  /** The scan finds `t` exactly when it occurs somewhere in `s`; in
      particular the empty string is found in every string. */
  lemma IncludesIffOccurs(s: string, t: string)
    ensures Includes(s, t) <==> exists i :: OccursAt(s, t, i)
  {
    if Includes(s, t) {
      var i := IncludesWitness(s, t);
    }
    if i :| OccursAt(s, t, i) {
      OccursIncluded(s, t, i);
    }
  }

  /** Where the scan stops: a position at which `t` occurs. */
  lemma {:induction false} IncludesWitness(s: string, t: string) returns (i: nat)
    requires Includes(s, t)
    ensures OccursAt(s, t, i)
    decreases |s|
  {
    if IsPrefix(t, s) {
      i := 0;
    } else {
      var j := IncludesWitness(s[1..], t);
      assert s[1..][j..j + |t|] == s[j + 1..j + 1 + |t|];
      i := j + 1;
    }
  }

  /** An occurrence at `i` is reached by the scan. */
  lemma {:induction false} OccursIncluded(s: string, t: string, i: int)
    requires OccursAt(s, t, i)
    ensures Includes(s, t)
    decreases i
  {
    if i == 0 {
      assert s[..|t|] == s[0..0 + |t|];
    } else {
      assert s[1..][i - 1..i - 1 + |t|] == s[i..i + |t|];
      OccursIncluded(s[1..], t, i - 1);
    }
  }

  // ---------------------------------------------------------------------
  // Trimming
  // ---------------------------------------------------------------------

  /** The characters `String.prototype.trim` removes: the white-space and
      line-terminator code points of ECMAScript (tab, vertical tab, form
      feed, space, no-break space, the byte-order mark, the other space
      separators of Unicode category Zs, and LF, CR, LS, PS). */
  predicate IsSpace(c: char) {
    || c == '\t' || c == '\n' || c == '\U{B}' || c == '\U{C}' || c == '\r'
    || c == ' ' || c == '\U{A0}' || c == '\U{1680}'
    || ('\U{2000}' <= c <= '\U{200A}')
    || c == '\U{2028}' || c == '\U{2029}' || c == '\U{202F}' || c == '\U{205F}'
    || c == '\U{3000}' || c == '\U{FEFF}'
  }

  predicate IsBlank(s: string) {
    forall i :: 0 <= i < |s| ==> IsSpace(s[i])
  }

  /** The white space at the front is dropped, and nothing else. */
  function TrimStart(s: string): (r: string)
    ensures |r| <= |s| && r == s[|s| - |r|..]
    ensures IsBlank(s[..|s| - |r|])
    ensures |r| > 0 ==> !IsSpace(r[0])
    decreases |s|
  {
    if |s| > 0 && IsSpace(s[0]) then
      var r := TrimStart(s[1..]);
      assert forall i :: 1 <= i < |s| - |r| ==> s[i] == s[1..][..|s| - 1 - |r|][i - 1];
      r
    else s
  }

  /** The white space at the back is dropped, and nothing else. */
  function TrimEnd(s: string): (r: string)
    ensures |r| <= |s| && r == s[..|r|]
    ensures IsBlank(s[|r|..])
    ensures |r| > 0 ==> !IsSpace(r[|r| - 1])
    decreases |s|
  {
    if |s| > 0 && IsSpace(s[|s| - 1]) then
      var r := TrimEnd(s[..|s| - 1]);
      assert forall i :: |r| <= i < |s| - 1 ==> s[i] == s[..|s| - 1][|r|..][i - |r|];
      r
    else s
  }

  /** `s.trim()`: a slice of `s` with only white space cut from either end,
      and no white space left at either end. */
  function Trim(s: string): (r: string)
    ensures exists a :: 0 <= a <= |s| - |r| && r == s[a..a + |r|]
                        && IsBlank(s[..a]) && IsBlank(s[a + |r|..])
    ensures |r| > 0 ==> !IsSpace(r[0]) && !IsSpace(r[|r| - 1])
  {
    TrimSlice(s, TrimStart(s), TrimEnd(TrimStart(s)));
    TrimEnd(TrimStart(s))
  }

  /** Cutting white space from the front and then from the back leaves a
      slice of the original with only white space around it. */
  lemma TrimSlice(s: string, m: string, r: string)
    requires |m| <= |s| && m == s[|s| - |m|..] && IsBlank(s[..|s| - |m|])
    requires |m| > 0 ==> !IsSpace(m[0])
    requires |r| <= |m| && r == m[..|r|] && IsBlank(m[|r|..])
    requires |r| > 0 ==> !IsSpace(r[|r| - 1])
    ensures exists a :: 0 <= a <= |s| - |r| && r == s[a..a + |r|]
                        && IsBlank(s[..a]) && IsBlank(s[a + |r|..])
    ensures |r| > 0 ==> !IsSpace(r[0]) && !IsSpace(r[|r| - 1])
  {
    var a := |s| - |m|;
    assert r == s[a..a + |r|];
    assert s[a + |r|..] == m[|r|..];
    assert |r| > 0 ==> r[0] == m[0];
  }

  /** Trimming leaves nothing exactly when every character is white space. */
  lemma {:induction false} TrimEmptyIffBlank(s: string)
    ensures Trim(s) == "" <==> IsBlank(s)
    decreases |s|
  {
    TrimStartEmptyIffBlank(s);
    var m := TrimStart(s);
    if |m| > 0 {
      TrimEndKeepsFirst(m);
    }
  }

  /** Trimming the front leaves nothing exactly when every character is
      white space: what is cut is white space, and what is left starts with
      a character that is not. */
  lemma TrimStartEmptyIffBlank(s: string)
    ensures TrimStart(s) == "" <==> IsBlank(s)
  {
    var r := TrimStart(s);
    assert s[..|s|] == s;
    if |r| > 0 {
      assert r[0] == s[|s| - |r|];
    }
  }

  /** A string starting with a non-space character keeps it when trimmed at
      the end, so it does not become empty. */
  lemma {:induction false} TrimEndKeepsFirst(s: string)
    requires |s| > 0 && !IsSpace(s[0])
    ensures |TrimEnd(s)| > 0
    decreases |s|
  {
    if IsSpace(s[|s| - 1]) {
      TrimEndKeepsFirst(s[..|s| - 1]);
    }
  }

  // ---------------------------------------------------------------------
  // Words and initials
  // ---------------------------------------------------------------------

  function SpaceCount(s: string): nat {
    if |s| == 0 then 0 else (if s[0] == ' ' then 1 else 0) + SpaceCount(s[1..])
  }

  predicate NoSpace(w: string) {
    forall i :: 0 <= i < |w| ==> w[i] != ' '
  }

  /** `s.split(' ')`: the pieces between single spaces, empty pieces
      included, so there is always one more piece than there are spaces. */
  function Split(s: string): (r: seq<string>)
    ensures |r| == SpaceCount(s) + 1
    ensures forall k :: 0 <= k < |r| ==> NoSpace(r[k])
    decreases |s|
  {
    if |s| == 0 then [""]
    else
      var rest := Split(s[1..]);
      if s[0] == ' ' then [""] + rest
      else [[s[0]] + rest[0]] + rest[1..]
  }

  /** `ws.join(' ')`. */
  function JoinWords(ws: seq<string>): string {
    if |ws| == 0 then ""
    else if |ws| == 1 then ws[0]
    else ws[0] + " " + JoinWords(ws[1..])
  }

  /** Joining the pieces of a split gives back the string. */
  lemma {:induction false} JoinSplit(s: string)
    ensures JoinWords(Split(s)) == s
    decreases |s|
  {
    if |s| > 0 {
      var rest := Split(s[1..]);
      JoinSplit(s[1..]);
      if s[0] == ' ' {
        assert Split(s) == [""] + rest;
        assert ([""] + rest)[1..] == rest;
        assert JoinWords(Split(s)) == "" + " " + JoinWords(rest);
        assert s == [s[0]] + s[1..];
      } else {
        var w := [s[0]] + rest[0];
        assert Split(s) == [w] + rest[1..];
        if |rest| == 1 {
          assert JoinWords(Split(s)) == w;
          assert JoinWords(rest) == rest[0];
        } else {
          assert ([w] + rest[1..])[1..] == rest[1..];
          assert JoinWords(Split(s)) == w + " " + JoinWords(rest[1..]);
          assert JoinWords(rest) == rest[0] + " " + JoinWords(rest[1..]);
        }
        assert s == [s[0]] + s[1..];
      }
    }
  }

  /** Splitting a join of space-free words gives back the words. */
  lemma {:induction false} SplitJoin(ws: seq<string>)
    requires |ws| >= 1
    requires forall k :: 0 <= k < |ws| ==> NoSpace(ws[k])
    ensures Split(JoinWords(ws)) == ws
    decreases |ws|
  {
    if |ws| == 1 {
      SplitWord(ws[0], "");
      assert ws[0] + "" == ws[0];
      assert Split("") == [""];
    } else {
      SplitJoin(ws[1..]);
      SplitWord(ws[0], " " + JoinWords(ws[1..]));
      assert ws[0] + " " + JoinWords(ws[1..]) == ws[0] + (" " + JoinWords(ws[1..]));
      var tail := " " + JoinWords(ws[1..]);
      assert tail[1..] == JoinWords(ws[1..]);
      assert Split(tail) == [""] + ws[1..];
      assert Split(tail)[0] == "" && Split(tail)[1..] == ws[1..];
      assert ws[0] + "" == ws[0];
      assert ws == [ws[0]] + ws[1..];
    }
  }

  /** A space-free word in front of `t` glues onto the first piece of `t`. */
  lemma {:induction false} SplitWord(w: string, t: string)
    requires NoSpace(w)
    ensures Split(w + t) == [w + Split(t)[0]] + Split(t)[1..]
    decreases |w|
  {
    if |w| > 0 {
      SplitWord(w[1..], t);
      assert (w + t)[1..] == w[1..] + t;
      assert (w + t)[0] == w[0];
      var rest := Split(w[1..] + t);
      assert rest[0] == w[1..] + Split(t)[0];
      assert rest[1..] == Split(t)[1..];
      assert [w[0]] + (w[1..] + Split(t)[0]) == w + Split(t)[0];
    } else {
      var r := Split(t);
      assert w + t == t;
      assert w + r[0] == r[0];
      assert r == [r[0]] + r[1..];
    }
  }

  /** The first character of each piece, in order; `n[0]` of an empty piece
      is `undefined`, which `join('')` renders as nothing. */
  function Heads(ws: seq<string>): (r: string)
    ensures |r| <= |ws|
  {
    if |ws| == 0 then ""
    else (if |ws[0]| > 0 then [ws[0][0]] else "") + Heads(ws[1..])
  }

  /** `name.split(' ').map(n => n[0]).join('')`: the avatar fallback. */
  function Initials(name: string): (r: string)
    ensures |r| <= SpaceCount(name) + 1
  {
    Heads(Split(name))
  }

  /** The initials: at most one character per space-separated word, never a
      space, and each one taken from the name. */
  lemma InitialsShape(name: string)
    ensures |Initials(name)| <= SpaceCount(name) + 1
    ensures forall k :: 0 <= k < |Initials(name)| ==> Initials(name)[k] != ' '
    ensures forall k :: 0 <= k < |Initials(name)| ==> Initials(name)[k] in name
  {
    var ws := Split(name);
    HeadsShape(ws);
    JoinSplit(name);
    forall k | 0 <= k < |Initials(name)|
      ensures Initials(name)[k] in name
    {
      var j := HeadsSource(ws, k);
      WordInJoin(ws, j, 0);
    }
  }

  lemma {:induction false} HeadsShape(ws: seq<string>)
    requires forall k :: 0 <= k < |ws| ==> NoSpace(ws[k])
    ensures forall k :: 0 <= k < |Heads(ws)| ==> Heads(ws)[k] != ' '
    decreases |ws|
  {
    if |ws| > 0 {
      HeadsShape(ws[1..]);
    }
  }

  /** Every initial is the first character of some non-empty piece. */
  lemma {:induction false} HeadsSource(ws: seq<string>, k: nat) returns (j: nat)
    requires k < |Heads(ws)|
    ensures j < |ws| && |ws[j]| > 0 && Heads(ws)[k] == ws[j][0]
    decreases |ws|
  {
    var first := if |ws[0]| > 0 then [ws[0][0]] else "";
    if k < |first| {
      j := 0;
    } else {
      var j' := HeadsSource(ws[1..], k - |first|);
      j := j' + 1;
    }
  }

  /** Every character of a piece appears in the joined string. */
  lemma {:induction false} WordInJoin(ws: seq<string>, j: nat, i: nat)
    requires j < |ws| && i < |ws[j]|
    ensures ws[j][i] in JoinWords(ws)
    decreases |ws|
  {
    if |ws| > 1 {
      if j == 0 {
        assert JoinWords(ws)[i] == ws[0][i];
      } else {
        WordInJoin(ws[1..], j - 1, i);
        var c := ws[j][i];
        var rest := JoinWords(ws[1..]);
        var p :| 0 <= p < |rest| && rest[p] == c;
        assert JoinWords(ws)[|ws[0]| + 1 + p] == c;
      }
    }
  }

  /** The initials of space-free words joined by single spaces are their
      first letters: splitting recovers exactly those words. */
  lemma InitialsOfWords(ws: seq<string>)
    requires |ws| >= 1
    requires forall k :: 0 <= k < |ws| ==> NoSpace(ws[k])
    ensures Initials(JoinWords(ws)) == Heads(ws)
  {
    SplitJoin(ws);
  }
}

=== FILE: user_detail.dfy ===
/** The user detail page: the fetch effect keyed by the route's id, and
    what the page shows for each state it can leave behind. The route
    parameter is `None` when absent, and the directory's answer is an
    input: `Ok(Some(u))` for a user, `Ok(None)` for a null body, `Err` for
    a failed request. */
module UserDetail {
  import opened Outcome
  import opened Services
  import opened Text

  const NoIdError := "No user ID provided"
  const LoadError := "Failed to load user details"
  const NotFoundText := "The user you're looking for doesn't exist."
  const NotProvided := "Not provided"

  /** The page's state: the loaded user, the spinner flag, the error. */
  datatype Detail = Detail(user: Option<User>, loading: bool, error: Option<string>)

  /** The page as it mounts: spinning, nothing loaded, no error. */
  const Start := Detail(None, true, None)

  /** `id` is falsy: absent or the empty string. */
  predicate MissingId(id: Option<string>) {
    id.None? || id.value == ""
  }

  /** The effect `fetchUser`, run on the state `d` the page is in. A missing
      id sets its error without asking the directory; otherwise the answer
      sets the user, or the error when the request failed. Nothing is
      cleared beforehand, and `loading` is false on every path. */
  function FetchUser(d: Detail, id: Option<string>, response: Fetch<Option<User>>): (r: Detail)
    ensures !r.loading
    ensures MissingId(id) ==> r == d.(error := Some(NoIdError), loading := false)
    ensures !MissingId(id) && response.Ok? ==>
              r.user == response.data && r.error == d.error
    ensures !MissingId(id) && response.Err? ==>
              r.error == Some(LoadError) && r.user == d.user
  {
    if MissingId(id) then
      d.(error := Some(NoIdError), loading := false)
    else
      match response
      case Ok(data) => d.(user := data, loading := false)
      case Err => d.(error := Some(LoadError), loading := false)
  }

  /** The website line: a link to `https://` plus the site, or the
      placeholder text. */
  datatype Website = Unlisted(text: string) | Link(href: string, text: string)

  /** What the page renders. */
  datatype View =
    | Spinner
    | NotFound(message: string)
    | ProfileCard(initials: string, name: string, email: string, handle: string,
                  phone: string, website: Website)

  /** The phone line: the number, or the placeholder for an empty one. */
  function PhoneLine(phone: string): (r: string)
    ensures phone == "" ==> r == NotProvided
    ensures phone != "" ==> r == phone
  {
    if phone != "" then phone else NotProvided
  }

  /** The website line. */
  function WebsiteLine(site: string): (r: Website)
    ensures site == "" <==> r.Unlisted?
    ensures r.Unlisted? ==> r.text == NotProvided
    ensures r.Link? ==> r.href == "https://" + site && r.text == site
  {
    if site != "" then Link("https://" + site, site) else Unlisted(NotProvided)
  }

  /** `error` is truthy. */
  predicate HasError(d: Detail) {
    d.error.Some? && d.error.value != ""
  }

  /** The page: a spinner while loading; the not-found panel when there is
      an error or no user, with the error as its message if there is one;
      otherwise the profile card. */
  function Render(d: Detail): (v: View)
    ensures d.loading <==> v.Spinner?
    ensures !d.loading ==> (v.NotFound? <==> HasError(d) || d.user.None?)
    ensures v.NotFound? ==> v.message == (if HasError(d) then d.error.value else NotFoundText)
    ensures v.ProfileCard? ==>
              && d.user.Some? && v.name == d.user.value.name && v.email == d.user.value.email
              && v.handle == "@" + d.user.value.username
              && v.phone == PhoneLine(d.user.value.phone)
              && v.website == WebsiteLine(d.user.value.website)
              && v.initials == Initials(d.user.value.name)
              && |v.initials| <= SpaceCount(v.name) + 1
              && forall k :: 0 <= k < |v.initials| ==> v.initials[k] in v.name
  {
    if d.loading then Spinner
    else if HasError(d) || d.user.None? then
      NotFound(if HasError(d) then d.error.value else NotFoundText)
    else
      var u := d.user.value;
      InitialsShape(u.name);
      ProfileCard(Initials(u.name), u.name, u.email, "@" + u.username,
                  PhoneLine(u.phone), WebsiteLine(u.website))
  }

  /** The first visit: the spinner goes away on every path, and the card
      appears exactly when there is an id and the directory returned a user. */
  lemma FirstVisit(id: Option<string>, response: Fetch<Option<User>>)
    ensures !Render(FetchUser(Start, id, response)).Spinner?
    ensures Render(FetchUser(Start, id, response)).ProfileCard? <==>
              !MissingId(id) && response.Ok? && response.data.Some?
    ensures MissingId(id) ==> Render(FetchUser(Start, id, response)) == NotFound(NoIdError)
    ensures !MissingId(id) && response.Err? ==>
              Render(FetchUser(Start, id, response)) == NotFound(LoadError)
    ensures !MissingId(id) && response == Ok(None) ==>
              Render(FetchUser(Start, id, response)) == NotFound(NotFoundText)
  {
  }

  /** Because nothing is cleared when the id changes, an error from an
      earlier id stays on screen after a later id loads successfully. */
  lemma EarlierErrorPersists(d: Detail, id: Option<string>, u: User)
    requires HasError(d) && !MissingId(id)
    ensures Render(FetchUser(d, id, Ok(Some(u)))) == NotFound(d.error.value)
  {
  }
}
